=== FILE: README.md ===
# Comprende, modelled in Dafny

Comprende grades each student's understanding of each concept from their homework, and then writes a report per student. It also draws a knowledge graph of who is aware of what, forms study groups, plans lessons for concepts the class is weak on, and gives each student homework. This project models the core of that system:

- **The agent pipeline** (`agent.py`, module `Pipeline`). A shared state passes through six nodes in a fixed order: ingest → evaluate → reports → kg_groups → lessons → homework → end. Each node adds only its own output field. A node that raises ends the run with its error.
- **The scoring model's reply** (`score_comprehension`, module `Grader`). The reply is parsed as JSON. If that fails, the slice from the first `{` to the last `}` is parsed. With no brace pair there is a fallback record. Finally the three default keys are set.
- **Awareness** (module `Awareness`). A student is aware of a concept when they score at least 70 on it; a missing score reads as 0. The module also covers which concepts a group covers, the knowledge-graph edges, and a student's weak concepts (score below 70).
- **`build_study_groups`** (module `StudyGroups`). The greedy partition: each round picks a seed, then runs a coverage-extension phase, then a fill phase.
- **The cohort's weak concepts** (module `WeakConcepts`). For each concept, the scores are sorted and the value at index `len // 2` is taken (the upper median). The concept is weak when that value is below 70.
- **The sidebar inputs and the initial state** (`main.py`, module `Names` and `Pipeline.InitialState`). Comma-separated names are split, stripped and filtered.

Modelling choices:

- **Scores** are `real`.
- **Python exceptions** are values of the `Error` datatype inside a `Result`.
- **External code becomes function-typed parameters** (the `Collaborators` datatype). This covers:
  - the language model (grading, reports, lesson plans, homework);
  - vector retrieval;
  - `json.loads`;
  - `float` on strings.
- **Tie-breaks.** Python's `max` over a set returns the first maximizer in the set's iteration order, and that order is unspecified. The model keeps the unassigned students in ascending code-point order and takes the first maximizer, so a tie goes to the smallest name.

Where the system's documented design and its code disagree, the model follows the code:

- The groups partition the students that have a score record (`scores.keys()`), not the `students` list. In the pipeline the two coincide after `evaluate`, and `Pipeline.RunOutputs` states it in terms of the list.
- Name lists are not deduplicated: `Names.ParseJoin` shows that a repeated name comes back repeated.
- `if best:` is false for a student whose name is the empty string. The seed step is then skipped, and a target size of 0 would loop forever. `StudyGroups.BuildStudyGroups` therefore requires `target >= 1` or that no student has the empty name, and it models the skipped seed faithfully.
- The lesson-plan median loop reads `scores` only when both students and concepts are listed. With concepts but no students it raises `IndexError` on the empty list. `Pipeline.RunSucceeds` shows that, in the model, this is the only way a run fails once every cell has been graded.

## Model

| member | source | states |
|---|---|---|
| Awareness.AwareMap | tooling/agent_capabilities.py:80 | the aware table has one entry per listed concept, and a student is in a concept's set exactly when they have a score record and score at least 70 on it, a missing score reading as 0 |
| Awareness.Coverage | tooling/agent_capabilities.py:85-90 | the coverage of a group holds only listed concepts |
| Awareness.CoverageMembership | tooling/agent_capabilities.py:85-90 | a concept is covered exactly when it is listed, has an aware set, and that set meets the group |
| Awareness.CoverageMeansAwareMember | tooling/agent_capabilities.py:85-90 | over the aware table, a concept is covered exactly when it is listed and some group member is aware of it |
| Awareness.CoverageMonotone | tooling/agent_capabilities.py:85-90 | adding students to a group never uncovers a concept |
| Awareness.AwareCountCounts | tooling/agent_capabilities.py:94 | over a table whose sets hold exactly the aware students, the seed key of a student is the number of listed concepts (repeats counted) on which they score at least 70 |
| Awareness.AwareMapCount | tooling/agent_capabilities.py:80-94 | over the grouping's own aware table, the seed key counts the listed concepts the student is aware of |
| Awareness.Edges | tooling/agent_capabilities.py:116-119 | every knowledge-graph edge joins a scored student to a concept in that student's own score map |
| Awareness.EdgesAreAwareness | tooling/agent_capabilities.py:116-119 | a knowledge-graph edge joins a student and a concept exactly when the student has a score on that concept reaching the threshold; for a positive threshold the edges are exactly the awareness relation |
| Awareness.WeakFor | agent.py:100 | a student's weak concepts are among the concepts they were scored on |
| Awareness.WeakIsNotAware | agent.py:100 | a concept is weak for a student exactly when they were scored on it and are not aware of it, so the per-student rule is the complement of awareness |
| StudyGroups.SeedKeyCounts | tooling/agent_capabilities.py:94 | the seed's ranking key is the number of listed concepts the student scores at least 70 on |
| StudyGroups.GainCounts | tooling/agent_capabilities.py:99-103 | a student's marginal gain is the number of listed concepts they are aware of that the group does not cover yet |
| StudyGroups.FirstMax | tooling/agent_capabilities.py:99 | the picked candidate has a largest key among all candidates, and every earlier candidate has a strictly smaller key |
| StudyGroups.FirstMaxSmallestName | tooling/agent_capabilities.py:94 | with candidates in ascending order, the pick has the smallest name among all maximizers |
| StudyGroups.Seed | tooling/agent_capabilities.py:94-97 | the seed is aware of as many concepts as any unassigned student; no seed is taken exactly when the empty name is a maximizer; no student is lost or duplicated |
| StudyGroups.FirstMaxIsEmptyName | tooling/agent_capabilities.py:94-95 | the first maximizer is the empty name exactly when the empty name is unassigned and aware of as many concepts as anyone |
| StudyGroups.Step | tooling/agent_capabilities.py:99-101 | one pick moves a single unassigned student to the end of the group, leaves the earlier members in place, and loses no student and invents none |
| StudyGroups.StepKeepsMembers | tooling/agent_capabilities.py:100 | after a pick, the students in the group and the unassigned students together are the same as before |
| StudyGroups.StepIsGreedy | tooling/agent_capabilities.py:99 | the picked student adds at least as many new concepts as any other unassigned student |
| StudyGroups.Extend | tooling/agent_capabilities.py:98-101 | the coverage phase stops only when every listed concept is covered, the group has reached the target size, or no student is left; it never grows past the target (or its starting size), keeps the starting members in front, and loses no student and invents none |
| StudyGroups.Fill | tooling/agent_capabilities.py:102-105 | the fill phase ends with the group at the target size or with every student taken; it keeps the members the group started with, and it loses no student and invents none |
| StudyGroups.FillIsGreedy | tooling/agent_capabilities.py:102-105 | every student the fill phase adds had a largest marginal gain among the students still unassigned at that moment |
| StudyGroups.ExtendThenFill | tooling/agent_capabilities.py:98-105 | the coverage-extension phase followed by the fill phase picks the same students as the fill phase alone |
| StudyGroups.FillKeepsOrder | tooling/agent_capabilities.py:102-105 | the students left unassigned stay in ascending order |
| StudyGroups.Round | tooling/agent_capabilities.py:92-105 | one round forms a group of `target_size` students (at least one), or of all remaining students when fewer are left; its members and the rest are disjoint and together are exactly the students that were unassigned |
| StudyGroups.RoundSeedIsMaximal | tooling/agent_capabilities.py:94-97 | when no name is empty, a group's first member is aware of the most concepts among the unassigned students |
| StudyGroups.RoundIsGreedy | tooling/agent_capabilities.py:98-105 | every member after the seed was a largest-gain choice at the moment it was picked |
| StudyGroups.CeilDivBounds | tooling/agent_capabilities.py:91 | the round count `CeilDiv(n, d)` is the ceiling of n / d: the least number of groups of size d that hold n students |
| StudyGroups.Rounds | tooling/agent_capabilities.py:91-107 | the outer loop emits ceil(students / target_size) groups |
| StudyGroups.RoundsChain | tooling/agent_capabilities.py:91-107 | each emitted group is the next `target_size` students (or all that are left), listed in ascending order, taken out of those not yet grouped |
| StudyGroups.ChainShape | tooling/agent_capabilities.py:102-106 | every group is sorted and holds between one and `target_size` students, and all but the last are full |
| StudyGroups.ChainPartition | tooling/agent_capabilities.py:91-107 | every student lies in exactly one group, and no one else does |
| StudyGroups.Numbered | tooling/agent_capabilities.py:84 | the group ids are consecutive integers from the starting id, with one group per id in formation order |
| StudyGroups.BuildStudyGroups | tooling/agent_capabilities.py:73-108 | the ids are exactly 1 .. ceil(number of scored students / target_size) |
| StudyGroups.BuildStudyGroupsShape | tooling/agent_capabilities.py:102-106 | each group lists its members in ascending order and holds between one and `target_size` students; every group before the last is full |
| StudyGroups.BuildStudyGroupsPartition | tooling/agent_capabilities.py:73-108 | the groups partition the scored students: each is in exactly one group, and no one else is grouped |
| Lex.SortSet | tooling/agent_capabilities.py:106 | `sorted(group)` lists exactly the group's members in strictly ascending code-point order |
| Grader.Find | tooling/agent_capabilities.py:38 | the first index of the character, or -1 exactly when it is absent |
| Grader.RFind | tooling/agent_capabilities.py:39 | the last index of the character, or -1 exactly when it is absent |
| Grader.BracePairBounds | tooling/agent_capabilities.py:40 | the guard `start >= 0 and end > start` holds exactly when some `{` comes before some `}` |
| Grader.BraceSlice | tooling/agent_capabilities.py:38-41 | the slice exists exactly when a brace pair does; it starts with `{`, ends with `}`, and has no `{` before it and no `}` after it |
| Grader.Decode | tooling/agent_capabilities.py:35-43 | a reply that parses is used as is; with no brace pair the fallback record is used; the only error is `JSONDecodeError`, raised exactly when the whole reply and its brace slice both fail to parse; when only the slice parses, the result is the slice's value |
| Grader.SetDefault | tooling/agent_capabilities.py:44 | `setdefault` adds the key and changes no existing entry; a missing key gets the default |
| Grader.WithDefaults | tooling/agent_capabilities.py:44-46 | the record gains `score`, `pain_points` and `evidence` (0, [] and [] when missing) and keeps every existing entry |
| Grader.ScoreComprehension | tooling/agent_capabilities.py:35-47 | the result is a record exactly when the reply decodes to a JSON object; it then has all three keys, a missing `score` reading 0 and missing `pain_points` and `evidence` reading [], and keeps every decoded entry; a non-object raises `AttributeError`, and a reply whose text and brace slice both fail to parse raises `JSONDecodeError` |
| Grader.UnparsableReply | tooling/agent_capabilities.py:42-47 | a reply that does not parse and has no brace pair gives score 0, one pain point and no evidence |
| Grader.ToFloat | agent.py:37 | numbers are kept, booleans become 1 or 0, and a string the float parser accepts becomes the parsed value; `ValueError` is raised exactly for a string the parser rejects, and `TypeError` exactly for null, lists and objects |
| Grader.Snippet | agent.py:35 | the snippet is the bracketed source file (`?` when missing), a space, and the first min(600, length) characters of the chunk |
| WeakConcepts.Sort | agent.py:78 | the result is in ascending order and is a permutation of the input |
| WeakConcepts.UpperMedian | agent.py:78-79 | the value at index `len // 2` of the sorted scores is one of the scores, at most `len // 2` scores lie below it, and more than `len // 2` lie below any larger value |
| WeakConcepts.UpperMedianBelow | agent.py:78-80 | the value at index `len // 2` of the sorted scores is below `t` exactly when more than `len // 2` of the scores are below `t` |
| WeakConcepts.UpperMedianOfSorted | agent.py:79 | on values already in ascending order, the median is the value at index `len // 2` |
| WeakConcepts.UpperMedianOdd | agent.py:79 | the median of the scores 40, 60, 80 is 60 |
| WeakConcepts.UpperMedianEven | agent.py:79 | the median of the scores 40, 60, 80, 100 is 80, the upper middle value and not the mean |
| WeakConcepts.FirstMissing | agent.py:77 | the position of the first listed student without a score record |
| WeakConcepts.Column | agent.py:77 | the column succeeds exactly when every listed student has a score record, and then holds their scores on the concept in list order (0 when missing); otherwise it raises `KeyError` for the first student without one |
| WeakConcepts.Weak | agent.py:75-81 | the weak list keeps the concepts' order; it holds exactly the listed concepts on which more than half (rounded down) of the cohort scores below 70; it raises `IndexError` exactly when concepts are listed but no students, and, when concepts are listed, `KeyError` naming the first listed student without a score record |
| WeakConcepts.WeakIsKeep | agent.py:75-81 | on a scored cohort the weak list is the listed concepts, in order and with repeats, that belong to the set of cohort-weak concepts |
| WeakConcepts.WeakCounts | agent.py:75-81 | a concept listed several times appears in the weak list as many times as it is listed when the cohort is weak on it, and not at all otherwise |
| Pipeline.InitialState | main.py:86-91 | the students and the concepts are the parsed sidebar texts, the table names are the ones given, and no node output is set; for either list, comma-joined well-formed names are read back as exactly those names |
| Pipeline.NodeIngest | agent.py:19-21 | ingest passes the state on unchanged |
| Pipeline.ReplyAsks | agent.py:34-36 | (unfolding equation) the scoring model is asked about the student and the concept with one snippet per retrieved chunk, in retrieval order |
| Pipeline.Cell | agent.py:34-40 | a cell grades exactly when the reply yields a record whose score `float` accepts; the error of either step is passed on; the score is `float` of the record's score, so a missing score reads as 0 and a numeric one is kept; missing pain points read as [], and otherwise the pain points are the record's |
| Pipeline.CellDegrades | agent.py:36-40 | a reply that does not parse and has no brace pair still grades, with score 0 and the single pain point "Unable to parse grader output" |
| Pipeline.EvalRow | agent.py:33-40 | a student's row succeeds exactly when every concept's cell grades; each listed concept then gets that cell's score and pain points, and no other entry changes; a failure is some cell's error |
| Pipeline.EvalGrid | agent.py:29-40 | the grid succeeds exactly when every cell grades; it adds one row per listed student, and a failure is the error of some cell |
| Pipeline.EvalGridFrame | agent.py:29-32 | rows of students not in the list are left as they were |
| Pipeline.EvalRowOf | agent.py:31-40 | a row built from empty maps holds exactly the listed concepts, each with its cell's score and pain points |
| Pipeline.EvalGridCells | agent.py:29-40 | every listed student's row holds exactly the listed concepts, each with its cell's score and pain points |
| Pipeline.NodeEvaluate | agent.py:23-44 | evaluate succeeds exactly when every cell grades; it sets scores and pain points keyed by exactly the listed students, each row taken cell by cell from the graded records, and changes nothing else |
| Pipeline.ReportRows | agent.py:50-59 | the loop succeeds exactly when every listed student has scores and pain points; each listed student's report is written from their own scores and pain points |
| Pipeline.NodeReports | agent.py:46-61 | reports succeed exactly when every listed student has scores and pain points; they are keyed by exactly the listed students, and nothing else changes |
| Pipeline.NodeKgGroups | agent.py:63-70 | kg_groups succeeds exactly when scores are present; it sets the groups to `build_study_groups` with target size 2, and nothing else changes |
| Pipeline.NodeLessons | agent.py:72-93 | lessons succeed exactly when no concept is listed, or when students are listed and all have scores; with no concept listed the plans are empty; otherwise they are keyed by exactly the cohort-weak concepts; nothing else changes |
| Pipeline.HomeworkRows | agent.py:99-113 | each listed student gets the congratulation exactly when they have no concept below 70, and otherwise homework on exactly those concepts |
| Pipeline.NodeHomework | agent.py:95-116 | homework succeeds exactly when every listed student has scores; it is keyed by exactly the listed students, and nothing else changes |
| Pipeline.Next | agent.py:127-132 | each edge leads to the stage one place later |
| Pipeline.After | agent.py:126-132 | the stage reached after n edges from the entry point is the one at index n |
| Pipeline.StageOrder | agent.py:126-132 | the run is linear: every stage is reached exactly once, and the end comes after all six nodes |
| Pipeline.RunStep | agent.py:127-133 | (unfolding equation) a run applies the current node and continues from its successor, or stops at the node's error |
| Pipeline.RunFromIngest | agent.py:126-128 | (unfolding equation) a run is ingest (which passes the state on), then evaluate, then the rest of the graph from reports |
| Pipeline.LessonsTail | agent.py:72-116 | on a scored state, the last two nodes fail only when concepts are listed but no students, with `IndexError` |
| Pipeline.RunSucceeds | agent.py:118-133 | a run completes exactly when every cell grades and the cohort is not empty while concepts are listed; an empty cohort with concepts raises `IndexError` |
| Pipeline.Run | agent.py:118-133 | a completed run leaves the name lists and the table names it was given unchanged |
| Pipeline.RunFromKeepsInputs | agent.py:126-133 | a completed run of the graph from any stage leaves the name lists and the table names unchanged |
| Pipeline.RunOutputs | agent.py:118-133 | after a completed run, scores, pain points, reports and homework are keyed by exactly the students; there is a lesson plan for exactly the cohort-weak concepts; and the groups partition the students |
| Names.Split | main.py:36 | `split(",")` gives one more piece than there are commas; no piece holds a comma, and joining the pieces gives the text back |
| Names.SplitJoin | main.py:36 | splitting comma-free pieces joined by commas gives the pieces back |
| Names.Strip | main.py:36 | `strip()` gives the part of the text where the leading whitespace ends, with only whitespace around it and none at either end |
| Names.StripKeepsOut | main.py:36 | stripping adds no character |
| Names.KeepNames | main.py:36 | the names are exactly the stripped non-blank pieces, in order: they are a subsequence of the stripped pieces, one per non-blank piece, each non-empty and stripped |
| Names.KeepNamesCons | main.py:36 | (unfolding equation) the filter keeps a leading piece, stripped, exactly when it is not blank, and then treats the remaining pieces alone |
| Names.ParseNames | main.py:35-38 | the names are exactly the stripped non-blank pieces of `split(",")`, in order; each is non-empty, stripped and comma-free |
| Names.KeepNamesWellFormed | main.py:36 | a list of well-formed names passes through the strip-and-filter unchanged |
| Names.ParseJoin | main.py:35-38 | parsing comma-joined well-formed names gives back exactly those names, in order and with repeats |
| Names.ParseSpaced | main.py:36 | the spaced entry "Aarav, Bhavana" lists Aarav and Bhavana |
| Names.ParseEmpty | main.py:36 | an empty text lists no names |

## Left out

- The user interface (Streamlit widgets, status messages, the rendering of results), PDF ingestion and the `VECTOR_TABLE` environment defaults: these are I/O.
- The language model's output is a parameter: the scoring model's reply, the report, the lesson plan and the homework text. The prompt texts are left out with it.
- Vector retrieval is a parameter too. The `k=6` and `k=3` limits on retrieved chunks, and the building of lesson and homework context from them (agent.py:84-85 and 104-108), only shape prompts. They are left out.
- Exceptions raised by the collaborators (`get_vectorstore`, `similarity_search`, `llm.invoke`) or by the database writes (agent.py:41, 58, 65-68, 84, 89, 91, 106, 112, 114) are not modelled. The collaborators are total, so a run fails in the model only with the errors named above.
- Every database write (`write_comprehension`, `upsert_students_and_concepts`, `write_student_concepts`, `write_study_groups`, `write_lesson_plans`, `write_homework`): `tooling/tidb.py` is not part of this model.
- Drawing the knowledge graph (layout, colours, figure). Only its edge rule is modelled (`Awareness.Edges`).
- `json.dumps` of a student's results in `node_reports`: the report collaborator receives the scores and pain points themselves.
- Grader.Snippet: a chunk's `source_file` is an optional string. A `source_file` entry that is present with value `None` (printed `[None]`) or holds a non-string (printed with `str`) is not modelled; the snippet only reaches the scoring model.
- Floating point: scores are exact reals, and `float` on strings is a parameter.
- Awareness.WeakFor: gives the weak concepts as a set. The source lists them in the score map's insertion order, which only affects the homework prompt text.
- StudyGroups.BuildStudyGroups: fixes the unspecified tie-break of `max` over a set to the smallest name. It requires `target_size >= 1` or that no student has the empty name; otherwise the source's loop does not terminate. A negative `target_size` is not modelled (the target is a `nat`).
- Pipeline.NodeKgGroups: groups the students with a score record, not the `students` list as such; the two agree after `evaluate` (`Pipeline.RunOutputs`).
- Grader.Decode: the parser is a parameter, so which replies parse (and what they decode to) is not modelled.

=== FILE: awareness.dfy ===
/** The awareness relation between students and concepts, derived from the
    score table: who is aware of what, which concepts a set of students
    covers, the knowledge-graph edges, and a student's weak concepts. */
module Awareness {
  import opened Basics

  /** One student's scores: concept -> score. */
  type ScoreMap = map<string, real>

  /** The cohort's scores: student -> concept -> score. */
  type Scores = map<string, ScoreMap>

  /** The score from which a student counts as aware of a concept, and below
      which the concept counts as weak. */
  const Threshold: real := 70.0

  /** `m.get(c, 0)`: a concept without a score reads as 0. */
  function Get(m: ScoreMap, c: string): real {
    if c in m then m[c] else 0.0
  }

  /** Student `s` is aware of concept `c` at `threshold`. */
  predicate AwareAt(scores: Scores, s: string, c: string, threshold: real) {
    s in scores && Get(scores[s], c) >= threshold
  }

  /** The `aware` table the grouping computes once: each listed concept mapped
      to the set of students aware of it at the default threshold. */
  function AwareMap(scores: Scores, concepts: seq<string>): (aware: map<string, set<string>>)
    ensures aware.Keys == Members(concepts)
    ensures forall c, s | c in aware :: s in aware[c] <==> AwareAt(scores, s, c, Threshold)
  {
    map c | c in concepts :: set s | s in scores && Get(scores[s], c) >= Threshold
  }

  /** `coverage(group)`: the listed concepts whose aware set meets `group`,
      found concept by concept as the loop over `concepts` does. */
  function Coverage(aware: map<string, set<string>>, concepts: seq<string>, group: set<string>): (covered: set<string>)
    ensures covered <= Members(concepts)
  {
    if concepts == [] then {}
    else
      var c := concepts[0];
      var rest := Coverage(aware, concepts[1..], group);
      if c in aware && aware[c] * group != {} then {c} + rest else rest
  }

  /** A concept is covered exactly when it is listed and its aware set meets the group. */
  lemma {:induction false} CoverageMembership(aware: map<string, set<string>>, concepts: seq<string>, group: set<string>, c: string)
    ensures c in Coverage(aware, concepts, group) <==> c in concepts && c in aware && aware[c] * group != {}
    decreases |concepts|
  {
    if concepts != [] {
      CoverageMembership(aware, concepts[1..], group, c);
      assert c in concepts <==> c == concepts[0] || c in concepts[1..];
    }
  }

  /** Coverage over the `aware` table is exactly "some member is aware". */
  lemma CoverageMeansAwareMember(scores: Scores, concepts: seq<string>, group: set<string>, c: string)
    ensures c in Coverage(AwareMap(scores, concepts), concepts, group)
        <==> c in concepts && exists s | s in group :: AwareAt(scores, s, c, Threshold)
  {
    var aware := AwareMap(scores, concepts);
    CoverageMembership(aware, concepts, group, c);
    if c in concepts && exists s | s in group :: AwareAt(scores, s, c, Threshold) {
      var s :| s in group && AwareAt(scores, s, c, Threshold);
      assert s in aware[c] * group;
    }
  }

  /** A covered concept stays covered when the group grows. */
  lemma CoverageMonotone(aware: map<string, set<string>>, concepts: seq<string>, g: set<string>, h: set<string>)
    requires g <= h
    ensures Coverage(aware, concepts, g) <= Coverage(aware, concepts, h)
  {
    forall c | c in Coverage(aware, concepts, g)
      ensures c in Coverage(aware, concepts, h)
    {
      CoverageMembership(aware, concepts, g, c);
      CoverageMembership(aware, concepts, h, c);
      var s :| s in aware[c] * g;
      assert s in aware[c] * h;
    }
  }

  /** `sum(1 for c in concepts if s in aware[c])`: listed concepts (repeats
      counted) whose aware set holds `s`. */
  function AwareCount(aware: map<string, set<string>>, concepts: seq<string>, s: string): (n: nat)
    ensures n <= |concepts|
  {
    if concepts == [] then 0
    else (if concepts[0] in aware && s in aware[concepts[0]] then 1 else 0) + AwareCount(aware, concepts[1..], s)
  }

  /** "`s` is aware of `c`" as a test on concepts, for counting. */
  function AwareOf(scores: Scores, s: string): string -> bool {
    c => AwareAt(scores, s, c, Threshold)
  }

  /** Over a table whose sets hold exactly the aware students, the count is
      the number of listed concepts (repeats counted) that `s` is aware of. */
  lemma {:induction false} AwareCountCounts(scores: Scores, aware: map<string, set<string>>, concepts: seq<string>, s: string)
    requires forall c | c in concepts :: c in aware && (s in aware[c] <==> AwareAt(scores, s, c, Threshold))
    ensures AwareCount(aware, concepts, s) == CountIf(concepts, AwareOf(scores, s))
  {
    if concepts != [] {
      assert concepts[0] in concepts;
      forall c | c in concepts[1..]
        ensures c in aware && (s in aware[c] <==> AwareAt(scores, s, c, Threshold))
      {
        assert c in concepts;
      }
      AwareCountCounts(scores, aware, concepts[1..], s);
    }
  }

  /** The seed key over the grouping's aware table counts the listed
      concepts on which `s` scores at least 70. */
  lemma AwareMapCount(scores: Scores, concepts: seq<string>, s: string)
    ensures AwareCount(AwareMap(scores, concepts), concepts, s) == CountIf(concepts, AwareOf(scores, s))
  {
    AwareCountCounts(scores, AwareMap(scores, concepts), concepts, s);
  }

  /** The edges of the knowledge graph: a student is linked to each concept
      that has a score in its own map reaching `threshold`. */
  function Edges(scores: Scores, threshold: real): (edges: set<(string, string)>)
    ensures forall e | e in edges :: e.0 in scores && e.1 in scores[e.0]
  {
    set s, c | s in scores && c in scores[s] && scores[s][c] >= threshold :: (s, c)
  }

  /** The graph shows awareness exactly for concepts the student was scored
      on; with a positive threshold a missing score (read as 0) can never
      make an edge, so the graph is then the whole awareness relation. */
  lemma EdgesAreAwareness(scores: Scores, threshold: real, s: string, c: string)
    ensures (s, c) in Edges(scores, threshold) <==> s in scores && c in scores[s] && AwareAt(scores, s, c, threshold)
    ensures threshold > 0.0 ==> ((s, c) in Edges(scores, threshold) <==> AwareAt(scores, s, c, threshold))
  {
  }

  /** `[c for c, v in m.items() if v < 70]` as a set: the scored concepts below
      the threshold. */
  function WeakFor(m: ScoreMap): (weak: set<string>)
    ensures weak <= m.Keys
  {
    set c | c in m && m[c] < Threshold
  }

  /** A student's weak concepts are the scored concepts it is not aware of. */
  lemma WeakIsNotAware(scores: Scores, s: string, c: string)
    requires s in scores
    ensures c in WeakFor(scores[s]) <==> c in scores[s] && !AwareAt(scores, s, c, Threshold)
  {
  }
}

=== FILE: basics.dfy ===
/** Shared vocabulary of the model: optional values, results that carry the
    Python exception a call would have raised, and small sequence predicates. */
module Basics {

  datatype Option<+T> = None | Some(value: T) {
    /** The wrapped value, or `default` when there is none (Python's `x or d`). */
    function GetOr(default: T): T {
      match this
      case Some(v) => v
      case None => default
    }
  }

  /** The exceptions the modelled code can raise. None of them is caught by
      the pipeline, so each one aborts a run. */
  datatype Error =
    | KeyError(key: string)
    | IndexError
    | JsonDecodeError
    | AttributeError
    | TypeError
    | ValueError

  /** A computation that either returns a value or raises an `Error`. */
  datatype Result<+T> = Success(value: T) | Failure(error: Error) {
    predicate IsFailure() {
      Failure?
    }

    function PropagateFailure<U>(): Result<U>
      requires Failure?
    {
      Failure(error)
    }

    function Extract(): T
      requires Success?
    {
      value
    }
  }

  /** No element occurs twice. */
  predicate Distinct<T(==)>(s: seq<T>) {
    forall i, j | 0 <= i < j < |s| :: s[i] != s[j]
  }

  /** `s` with the element at index `i` taken out; the others keep their order. */
  function RemoveAt<T>(s: seq<T>, i: nat): (r: seq<T>)
    requires i < |s|
    ensures |r| == |s| - 1
    ensures forall k | 0 <= k < i :: r[k] == s[k]
    ensures forall k | i <= k < |r| :: r[k] == s[k + 1]
  {
    s[..i] + s[i + 1..]
  }

  lemma RemoveAtElements<T>(s: seq<T>, i: nat)
    requires i < |s|
    requires Distinct(s)
    ensures Distinct(RemoveAt(s, i))
    ensures forall x :: x in RemoveAt(s, i) <==> x in s && x != s[i]
  {
    var r := RemoveAt(s, i);
    forall x | x in s && x != s[i]
      ensures x in r
    {
      var k :| 0 <= k < |s| && s[k] == x;
      if k < i {
        assert r[k] == x;
      } else {
        assert r[k - 1] == x;
      }
    }
  }

  function Min(a: int, b: int): int {
    if a <= b then a else b
  }

  /** `xs` is obtained from `ys` by deleting elements, keeping the order of the rest. */
  predicate Subsequence<T(==)>(xs: seq<T>, ys: seq<T>)
    decreases |ys|
  {
    if xs == [] then true
    else if ys == [] then false
    else (xs[0] == ys[0] && Subsequence(xs[1..], ys[1..])) || Subsequence(xs, ys[1..])
  }

  /** A shared first element extends a subsequence, and any first element may
      be skipped. */
  lemma SubsequenceCons<T>(x: T, xs: seq<T>, ys: seq<T>)
    requires Subsequence(xs, ys)
    ensures Subsequence([x] + xs, [x] + ys)
    ensures Subsequence(xs, [x] + ys)
  {
    assert ([x] + xs)[1..] == xs;
    assert ([x] + ys)[1..] == ys;
  }

  /** The number of elements of `s` that satisfy `p`. */
  function CountIf<T>(s: seq<T>, p: T -> bool): (n: nat)
    ensures n <= |s|
  {
    if s == [] then 0 else (if p(s[0]) then 1 else 0) + CountIf(s[1..], p)
  }

  /** The set of the elements of a sequence (Python's `set(xs)`). */
  function Members<T>(xs: seq<T>): set<T> {
    set x | x in xs
  }

  lemma {:induction false} DistinctMembers<T>(xs: seq<T>)
    requires Distinct(xs)
    ensures |Members(xs)| == |xs|
    decreases |xs|
  {
    if xs != [] {
      DistinctMembers(xs[1..]);
      assert Members(xs) == {xs[0]} + Members(xs[1..]);
      assert xs[0] !in Members(xs[1..]);
    }
  }

  /** Two sequences that together hold the elements of a third, counted with
      multiplicity, hold the same elements as it. */
  lemma SplitMembers<T>(a: seq<T>, b: seq<T>, c: seq<T>)
    requires multiset(a) + multiset(b) == multiset(c)
    ensures forall x :: x in a || x in b <==> x in c
    ensures Members(a) + Members(b) == Members(c)
  {
    forall x
      ensures x in a || x in b <==> x in c
    {
      assert x in multiset(a) + multiset(b) <==> x in multiset(c);
    }
  }
}

=== FILE: grader.dfy ===
/** The text handling around the scoring model: how `score_comprehension` turns the
    grader's reply into a record, how `node_evaluate` turns a record into a
    score, and how a retrieved chunk becomes an evidence snippet. The JSON
    parser and `float` on strings are parameters. */
module Grader {
  import opened Basics

  /** A decoded JSON value, as `json.loads` returns it. */
  datatype Json =
    | JNull
    | JBool(b: bool)
    | JNumber(n: real)
    | JString(s: string)
    | JArray(items: seq<Json>)
    | JObject(fields: map<string, Json>)

  /** A decoded JSON object: Python's `dict`. */
  type Record = map<string, Json>

  /** `s.find(c)`: the index of the first `c`, or -1. */
  function Find(s: string, c: char): (i: int)
    ensures -1 <= i < |s|
    ensures i == -1 <==> c !in s
    ensures i >= 0 ==> s[i] == c && forall k | 0 <= k < i :: s[k] != c
  {
    if s == [] then -1
    else if s[0] == c then 0
    else
      var i := Find(s[1..], c);
      assert s == [s[0]] + s[1..];
      if i == -1 then -1 else i + 1
  }

  /** `s.rfind(c)`: the index of the last `c`, or -1. */
  function RFind(s: string, c: char): (i: int)
    ensures -1 <= i < |s|
    ensures i == -1 <==> c !in s
    ensures i >= 0 ==> s[i] == c && forall k | i < k < |s| :: s[k] != c
  {
    if s == [] then -1
    else if s[|s| - 1] == c then |s| - 1
    else
      assert s == s[..|s| - 1] + [s[|s| - 1]];
      RFind(s[..|s| - 1], c)
  }

  /** Some `{` comes before some `}`. */
  predicate HasBracePair(resp: string) {
    exists i, j | 0 <= i < j < |resp| :: resp[i] == '{' && resp[j] == '}'
  }

  /** The brace pair exists exactly when the first `{` comes before the
      last `}`. */
  lemma BracePairBounds(resp: string)
    ensures HasBracePair(resp) <==> Find(resp, '{') >= 0 && RFind(resp, '}') > Find(resp, '{')
  {
    var start := Find(resp, '{');
    var end := RFind(resp, '}');
    if HasBracePair(resp) {
      var i, j :| 0 <= i < j < |resp| && resp[i] == '{' && resp[j] == '}';
      assert resp[i] in resp && resp[j] in resp;
    }
    if start >= 0 && end > start {
      assert resp[start] == '{' && resp[end] == '}';
    }
  }

  /** `resp[start:end+1]` with `start = resp.find("{")` and
      `end = resp.rfind("}")`, when `start >= 0 and end > start`. */
  function BraceSlice(resp: string): (r: Option<string>)
    ensures r.Some? <==> HasBracePair(resp)
    ensures r.Some? ==> exists i, j | 0 <= i < j <= |resp| ::
              && r.value == resp[i..j]
              && (forall k | 0 <= k < i :: resp[k] != '{')
              && (forall k | j <= k < |resp| :: resp[k] != '}')
    ensures r.Some? ==> |r.value| >= 2 && r.value[0] == '{' && r.value[|r.value| - 1] == '}'
  {
    var start := Find(resp, '{');
    var end := RFind(resp, '}');
    BracePairBounds(resp);
    if start >= 0 && end > start then Some(resp[start..end + 1]) else None
  }

  /** The record used when the reply holds no braces at all. */
  const Fallback: Record := map[
    "score" := JNumber(0.0),
    "pain_points" := JArray([JString("Unable to parse grader output")]),
    "evidence" := JArray([])]

  /** `d.setdefault(key, value)`. */
  function SetDefault(d: Record, key: string, value: Json): (r: Record)
    ensures r.Keys == d.Keys + {key}
    ensures forall k | k in d :: r[k] == d[k]
    ensures key !in d ==> r[key] == value
  {
    if key in d then d else d[key := value]
  }

  /** The three `setdefault` calls at the end of `score_comprehension`. */
  function WithDefaults(d: Record): (r: Record)
    ensures r.Keys == d.Keys + {"score", "pain_points", "evidence"}
    ensures forall k | k in d :: r[k] == d[k]
    ensures "score" !in d ==> r["score"] == JNumber(0.0)
    ensures "pain_points" !in d ==> r["pain_points"] == JArray([])
    ensures "evidence" !in d ==> r["evidence"] == JArray([])
  {
    SetDefault(SetDefault(SetDefault(d, "score", JNumber(0.0)), "pain_points", JArray([])), "evidence", JArray([]))
  }

  /** The `try`/`except` of `score_comprehension`: parse the whole reply;
      failing that, parse the brace slice, whose failure is not caught; with
      no brace pair, the fallback record. */
  function Decode(parse: string -> Option<Json>, resp: string): (r: Result<Json>)
    ensures parse(resp).Some? ==> r == Success(parse(resp).value)
    ensures parse(resp).None? && !HasBracePair(resp) ==> r == Success(JObject(Fallback))
    ensures parse(resp).None? && HasBracePair(resp) && parse(BraceSlice(resp).value).Some? ==>
              r == Success(parse(BraceSlice(resp).value).value)
    ensures r == Failure(JsonDecodeError) <==> parse(resp).None? && HasBracePair(resp) && parse(BraceSlice(resp).value).None?
    ensures r.Failure? ==> r.error == JsonDecodeError
  {
    match parse(resp)
    case Some(v) => Success(v)
    case None =>
      match BraceSlice(resp)
      case None => Success(JObject(Fallback))
      case Some(slice) =>
        match parse(slice)
        case Some(v) => Success(v)
        case None => Failure(JsonDecodeError)
  }

  /** `score_comprehension` from the scoring model's reply on: the decoded record
      with `score`, `pain_points` and `evidence` filled in when missing.
      A reply that decodes to something other than an object has no
      `setdefault` and raises `AttributeError`. */
  function ScoreComprehension(parse: string -> Option<Json>, resp: string): (r: Result<Record>)
    ensures r.Success? <==> Decode(parse, resp).Success? && Decode(parse, resp).value.JObject?
    ensures Decode(parse, resp).Failure? ==> r == Failure(JsonDecodeError)
    ensures r.Failure? && Decode(parse, resp).Success? ==> r.error == AttributeError
    ensures r.Success? ==> "score" in r.value && "pain_points" in r.value && "evidence" in r.value
    ensures r.Success? ==> forall k | k in Decode(parse, resp).value.fields ::
              k in r.value && r.value[k] == Decode(parse, resp).value.fields[k]
    ensures r.Success? ==> var d := Decode(parse, resp).value.fields;
              && ("score" !in d ==> r.value["score"] == JNumber(0.0))
              && ("pain_points" !in d ==> r.value["pain_points"] == JArray([]))
              && ("evidence" !in d ==> r.value["evidence"] == JArray([]))
  {
    var data :- Decode(parse, resp);
    match data
    case JObject(d) => Success(WithDefaults(d))
    case _ => Failure(AttributeError)
  }

  /** A reply with no `{` before a `}` that the parser rejects yields the
      fallback record unchanged: score 0, one pain point, no evidence. */
  lemma UnparsableReply(parse: string -> Option<Json>, resp: string)
    requires parse(resp).None? && !HasBracePair(resp)
    ensures ScoreComprehension(parse, resp) == Success(Fallback)
  {
    assert WithDefaults(Fallback) == Fallback;
  }

  /** Python's `float(x)` on a decoded value: numbers as they are, booleans
      as 1 or 0, strings through `parseFloat` (`ValueError` when it rejects
      them); `None`, lists and dicts raise `TypeError`. */
  function ToFloat(v: Json, parseFloat: string -> Option<real>): (r: Result<real>)
    ensures v.JNumber? ==> r == Success(v.n)
    ensures v.JBool? ==> r == Success(if v.b then 1.0 else 0.0)
    ensures v.JString? && parseFloat(v.s).Some? ==> r == Success(parseFloat(v.s).value)
    ensures r == Failure(TypeError) <==> v.JNull? || v.JArray? || v.JObject?
    ensures r == Failure(ValueError) <==> v.JString? && parseFloat(v.s).None?
  {
    match v
    case JNumber(n) => Success(n)
    case JBool(b) => Success(if b then 1.0 else 0.0)
    case JString(s) => (
      match parseFloat(s)
      case Some(x) => Success(x)
      case None => Failure(ValueError))
    case _ => Failure(TypeError)
  }

  /** A retrieved chunk: its text and the `source_file` entry of its
      metadata, if any. */
  datatype Doc = Doc(sourceFile: Option<string>, content: string)

  /** The evidence snippet of a chunk: the source file in brackets (`?` when
      unknown), a space, and the first 600 characters of the text. */
  function Snippet(d: Doc): (r: string)
    ensures var src := d.sourceFile.GetOr("?");
            && |r| == |src| + 3 + Min(600, |d.content|)
            && r[..|src| + 3] == "[" + src + "] "
            && r[|src| + 3..] <= d.content
  {
    var src := d.sourceFile.GetOr("?");
    "[" + src + "] " + d.content[..Min(600, |d.content|)]
  }
}

=== FILE: lex.dfy ===
/** Python's ordering of `str` values (code point by code point, a proper
    prefix first) and the `sorted(...)` of a set of names built on it. */
module Lex {

  /** `a <= b` on Python strings. */
  predicate LessEq(a: string, b: string)
    decreases |a|
  {
    |a| == 0 || (|b| > 0 && (a[0] < b[0] || (a[0] == b[0] && LessEq(a[1..], b[1..]))))
  }

  lemma {:induction false} LessEqReflexive(a: string)
    ensures LessEq(a, a)
    decreases |a|
  {
    if |a| > 0 {
      LessEqReflexive(a[1..]);
    }
  }

  lemma {:induction false} LessEqAntisymmetric(a: string, b: string)
    requires LessEq(a, b) && LessEq(b, a)
    ensures a == b
    decreases |a|
  {
    if |a| > 0 {
      LessEqAntisymmetric(a[1..], b[1..]);
      assert a == [a[0]] + a[1..];
      assert b == [b[0]] + b[1..];
    }
  }

  lemma {:induction false} LessEqTransitive(a: string, b: string, c: string)
    requires LessEq(a, b) && LessEq(b, c)
    ensures LessEq(a, c)
    decreases |a|
  {
    if |a| > 0 && a[0] == b[0] && b[0] == c[0] {
      LessEqTransitive(a[1..], b[1..], c[1..]);
    }
  }

  lemma {:induction false} LessEqTotal(a: string, b: string)
    ensures LessEq(a, b) || LessEq(b, a)
    decreases |a|
  {
    if |a| > 0 && |b| > 0 && a[0] == b[0] {
      LessEqTotal(a[1..], b[1..]);
    }
  }

  /** Strictly ascending: what `sorted` returns for a set of distinct names. */
  predicate StrictlySorted(s: seq<string>) {
    forall i, j | 0 <= i < j < |s| :: LessEq(s[i], s[j]) && s[i] != s[j]
  }

  lemma {:induction false} LeastExists(s: set<string>)
    requires s != {}
    ensures exists m :: m in s && forall x | x in s :: LessEq(m, x)
    decreases |s|
  {
    var y :| y in s;
    var rest := s - {y};
    if rest == {} {
      LessEqReflexive(y);
      forall x | x in s
        ensures LessEq(y, x)
      {
        assert x in rest || x == y;
      }
    } else {
      LeastExists(rest);
      var m :| m in rest && forall x | x in rest :: LessEq(m, x);
      LessEqTotal(m, y);
      if LessEq(m, y) {
        assert forall x | x in s :: x in rest || x == y;
      } else {
        forall x | x in s
          ensures LessEq(y, x)
        {
          if x == y {
            LessEqReflexive(y);
          } else {
            LessEqTransitive(y, m, x);
          }
        }
      }
    }
  }

  /** The smallest name of a non-empty set. */
  function Least(s: set<string>): (m: string)
    requires s != {}
    ensures m in s
    ensures forall x | x in s :: LessEq(m, x)
  {
    LeastExists(s);
    assert forall a, b | LessEq(a, b) && LessEq(b, a) :: a == b by {
      forall a, b | LessEq(a, b) && LessEq(b, a)
        ensures a == b
      {
        LessEqAntisymmetric(a, b);
      }
    }
    var m :| m in s && forall x | x in s :: LessEq(m, x);
    m
  }

  lemma LeastFirst(s: set<string>, m: string, rest: seq<string>)
    requires m in s && forall x | x in s :: LessEq(m, x)
    requires forall x :: x in rest <==> x in s - {m}
    requires StrictlySorted(rest)
    ensures StrictlySorted([m] + rest)
  {
    forall i, j | 0 <= i < j < |rest| + 1
      ensures LessEq(([m] + rest)[i], ([m] + rest)[j]) && ([m] + rest)[i] != ([m] + rest)[j]
    {
      assert ([m] + rest)[j] == rest[j - 1] && rest[j - 1] in rest;
      if i > 0 {
        assert ([m] + rest)[i] == rest[i - 1];
      }
    }
  }

  /** `sorted(s)` for a set of names: every member once, in ascending order. */
  function SortSet(s: set<string>): (r: seq<string>)
    ensures forall x :: x in r <==> x in s
    ensures |r| == |s|
    ensures StrictlySorted(r)
    decreases |s|
  {
    if s == {} then []
    else
      var m := Least(s);
      var rest := SortSet(s - {m});
      LeastFirst(s, m, rest);
      [m] + rest
  }
}

=== FILE: names.dfy ===
/** The sidebar inputs of main.py: a comma-separated text of student names
    and one of concept names, each read as
    `[x.strip() for x in text.split(",") if x.strip()]`. */
module Names {
  import opened Basics

  /** The characters Python's `str.isspace` accepts, which `str.strip()`
      removes: tab through carriage return, the four separators 0x1C-0x1F,
      space, and the Unicode spaces. */
  const WhiteSpace: set<char> := {
    '\U{9}', '\U{A}', '\U{B}', '\U{C}', '\U{D}', '\U{1C}', '\U{1D}', '\U{1E}',
    '\U{1F}', '\U{20}', '\U{85}', '\U{A0}', '\U{1680}', '\U{2000}', '\U{2001}', '\U{2002}',
    '\U{2003}', '\U{2004}', '\U{2005}', '\U{2006}', '\U{2007}', '\U{2008}', '\U{2009}', '\U{200A}',
    '\U{2028}', '\U{2029}', '\U{202F}', '\U{205F}', '\U{3000}'}

  predicate IsSpace(c: char) {
    c in WhiteSpace
  }

  predicate AllSpace(s: string) {
    forall i | 0 <= i < |s| :: IsSpace(s[i])
  }

  /** Neither end of `s` is whitespace. */
  predicate Stripped(s: string) {
    s == [] || (!IsSpace(s[0]) && !IsSpace(s[|s| - 1]))
  }

  function Occurrences(s: string, c: char): nat {
    if s == [] then 0 else (if s[0] == c then 1 else 0) + Occurrences(s[1..], c)
  }

  /** `sep.join(parts)`. */
  function Join(parts: seq<string>, sep: char): string
    decreases |parts|
  {
    if |parts| == 0 then ""
    else if |parts| == 1 then parts[0]
    else parts[0] + [sep] + Join(parts[1..], sep)
  }

  /** `s.split(sep)` with an explicit one-character separator: the pieces
      between separators, one more piece than there are separators. */
  function Split(s: string, sep: char): (parts: seq<string>)
    ensures |parts| == Occurrences(s, sep) + 1
    ensures forall k | 0 <= k < |parts| :: sep !in parts[k]
    ensures Join(parts, sep) == s
    decreases |s|
  {
    if |s| == 0 then [""]
    else
      var rest := Split(s[1..], sep);
      if s[0] == sep then
        [""] + rest
      else
        var r := [[s[0]] + rest[0]] + rest[1..];
        assert r[1..] == rest[1..];
        assert s == [s[0]] + s[1..];
        r
  }

  lemma {:induction false} SplitJoinPiece(p: string, sep: char, tail: string)
    requires sep !in p
    ensures Split(p + [sep] + tail, sep) == [p] + Split(tail, sep)
    decreases |p|
  {
    if |p| == 0 {
      assert p + [sep] + tail == [sep] + tail;
      assert ([sep] + tail)[1..] == tail;
    } else {
      SplitJoinPiece(p[1..], sep, tail);
      assert p + [sep] + tail == [p[0]] + (p[1..] + [sep] + tail);
      SplitCons(p[0], p[1..] + [sep] + tail, sep);
      assert [p[0]] + p[1..] == p;
    }
  }

  /** A leading non-separator joins the first piece. */
  lemma SplitCons(c: char, x: string, sep: char)
    requires c != sep
    ensures var rest := Split(x, sep);
            Split([c] + x, sep) == [[c] + rest[0]] + rest[1..]
  {
    assert ([c] + x)[1..] == x;
  }

  /** Splitting undoes joining, for pieces free of the separator. */
  lemma {:induction false} SplitJoin(parts: seq<string>, sep: char)
    requires |parts| > 0
    requires forall k | 0 <= k < |parts| :: sep !in parts[k]
    ensures Split(Join(parts, sep), sep) == parts
    decreases |parts|
  {
    if |parts| == 1 {
      SplitNoSeparator(parts[0], sep);
    } else {
      SplitJoin(parts[1..], sep);
      SplitJoinPiece(parts[0], sep, Join(parts[1..], sep));
      assert [parts[0]] + parts[1..] == parts;
    }
  }

  lemma {:induction false} SplitNoSeparator(s: string, sep: char)
    requires sep !in s
    ensures Split(s, sep) == [s]
    decreases |s|
  {
    if |s| > 0 {
      SplitNoSeparator(s[1..], sep);
      assert [s[0]] + s[1..] == s;
    }
  }

  /** `s.lstrip()`: drops the leading whitespace and nothing else. */
  function TrimStart(s: string): (r: string)
    ensures |r| <= |s| && r == s[|s| - |r|..]
    ensures AllSpace(s[..|s| - |r|])
    ensures r == [] || !IsSpace(r[0])
    decreases |s|
  {
    if |s| > 0 && IsSpace(s[0]) then
      var r := TrimStart(s[1..]);
      TrimStartStep(s, r);
      r
    else s
  }

  /** Dropping one leading space before trimming the rest trims `s`. */
  lemma TrimStartStep(s: string, r: string)
    requires |s| > 0 && IsSpace(s[0])
    requires |r| <= |s| - 1 && r == s[1..][|s| - 1 - |r|..]
    requires AllSpace(s[1..][..|s| - 1 - |r|])
    ensures r == s[|s| - |r|..]
    ensures AllSpace(s[..|s| - |r|])
  {
    assert s[..|s| - |r|] == [s[0]] + s[1..][..|s| - 1 - |r|];
  }

  /** `s.rstrip()`: drops the trailing whitespace and nothing else. */
  function TrimEnd(s: string): (r: string)
    ensures |r| <= |s| && r == s[..|r|]
    ensures AllSpace(s[|r|..])
    ensures r == [] || !IsSpace(r[|r| - 1])
    decreases |s|
  {
    if |s| > 0 && IsSpace(s[|s| - 1]) then
      var r := TrimEnd(s[..|s| - 1]);
      assert s[|r|..] == s[..|s| - 1][|r|..] + [s[|s| - 1]];
      r
    else s
  }

  /** `r` occurs in `s` at offset `i` with only whitespace around it. */
  predicate Framed(s: string, i: nat, r: string) {
    && i + |r| <= |s| && s[i..i + |r|] == r
    && AllSpace(s[..i]) && AllSpace(s[i + |r|..])
  }

  /** `s.strip()`: the result sits in `s` where the leading whitespace
      ends, only whitespace surrounds it, and it has none at either end. */
  function Strip(s: string): (r: string)
    ensures Stripped(r)
    ensures Framed(s, |s| - |TrimStart(s)|, r)
  {
    var t := TrimStart(s);
    var r := TrimEnd(t);
    StripFrame(s, t, r);
    r
  }

  /** A leading piece `r` of a trailing piece `t` of `s` sits in `s` at
      `|s| - |t|`, framed by what the two cuts dropped. */
  lemma StripFrame(s: string, t: string, r: string)
    requires |t| <= |s| && t == s[|s| - |t|..] && AllSpace(s[..|s| - |t|])
    requires |r| <= |t| && r == t[..|r|] && AllSpace(t[|r|..])
    requires t == [] || !IsSpace(t[0])
    requires r == [] || !IsSpace(r[|r| - 1])
    ensures Framed(s, |s| - |t|, r)
    ensures Stripped(r)
  {
    var i := |s| - |t|;
    assert s[i..i + |r|] == r;
    assert s[i + |r|..] == t[|r|..];
    if r != [] {
      assert r[0] == t[0];
    }
  }

  /** A slice holds no character its sequence lacks. */
  lemma SliceOmits(s: string, i: nat, j: nat, c: char)
    requires i <= j <= |s| && c !in s
    ensures c !in s[i..j]
  {
    forall m | 0 <= m < j - i
      ensures s[i..j][m] != c
    {
      assert s[i..j][m] == s[i + m];
    }
  }

  /** Stripping adds no character. */
  lemma StripKeepsOut(s: string, c: char)
    ensures c !in s ==> c !in Strip(s)
  {
    var r := Strip(s);
    var i := |s| - |TrimStart(s)|;
    if c !in s {
      SliceOmits(s, i, i + |r|, c);
    }
  }

  lemma StripStripped(s: string)
    requires Stripped(s)
    ensures Strip(s) == s
  {
  }

  /** What survives the filter: a stripped, non-blank piece. */
  predicate Kept(n: string) {
    n != [] && Stripped(n)
  }

  lemma KeptCons(t: string, rest: seq<string>)
    requires Kept(t) && forall k | 0 <= k < |rest| :: Kept(rest[k])
    ensures forall k | 0 <= k < |[t] + rest| :: Kept(([t] + rest)[k])
  {
    forall k | 0 <= k < |[t] + rest|
      ensures Kept(([t] + rest)[k])
    {
      if k > 0 {
        assert ([t] + rest)[k] == rest[k - 1];
      }
    }
  }

  /** The pieces as `strip()` leaves them. */
  function StripAll(parts: seq<string>): (r: seq<string>)
    ensures |r| == |parts|
    decreases |parts|
  {
    if parts == [] then [] else [Strip(parts[0])] + StripAll(parts[1..])
  }

  /** A piece the filter keeps: something is left after `strip()`. */
  predicate NonBlank(p: string) {
    Strip(p) != []
  }

  /** `[x.strip() for x in parts if x.strip()]`: the stripped pieces in their
      order, leaving out exactly the blank ones, so one name per non-blank
      piece. */
  function KeepNames(parts: seq<string>): (names: seq<string>)
    ensures |names| <= |parts|
    ensures forall k | 0 <= k < |names| :: Kept(names[k])
    ensures Subsequence(names, StripAll(parts))
    ensures |names| == CountIf(parts, NonBlank)
    decreases |parts|
  {
    if |parts| == 0 then []
    else
      var t := Strip(parts[0]);
      var rest := KeepNames(parts[1..]);
      SubsequenceCons(t, rest, StripAll(parts[1..]));
      if t != [] then
        KeptCons(t, rest);
        [t] + rest
      else rest
  }

  lemma CommaFreeCons(t: string, rest: seq<string>)
    requires ',' !in t && forall k | 0 <= k < |rest| :: ',' !in rest[k]
    ensures forall k | 0 <= k < |[t] + rest| :: ',' !in ([t] + rest)[k]
  {
    forall k | 0 <= k < |[t] + rest|
      ensures ',' !in ([t] + rest)[k]
    {
      if k > 0 {
        assert ([t] + rest)[k] == rest[k - 1];
      }
    }
  }

  /** Filtering comma-free pieces leaves comma-free names. */
  lemma {:induction false} KeepNamesCommaFree(parts: seq<string>)
    requires forall k | 0 <= k < |parts| :: ',' !in parts[k]
    ensures forall k | 0 <= k < |KeepNames(parts)| :: ',' !in KeepNames(parts)[k]
    decreases |parts|
  {
    if |parts| > 0 {
      var tail := parts[1..];
      assert forall k | 0 <= k < |tail| :: tail[k] == parts[k + 1];
      KeepNamesCommaFree(tail);
      StripKeepsOut(parts[0], ',');
      if Strip(parts[0]) != [] {
        CommaFreeCons(Strip(parts[0]), KeepNames(tail));
      }
    }
  }

  /** A name is what the parser can return: non-empty, stripped, comma-free. */
  predicate WellFormedName(n: string) {
    n != [] && Stripped(n) && ',' !in n
  }

  /** main.py's reading of a comma-separated list of names. */
  function ParseNames(text: string): (names: seq<string>)
    ensures |names| <= Occurrences(text, ',') + 1
    ensures forall k | 0 <= k < |names| :: WellFormedName(names[k])
    ensures Subsequence(names, StripAll(Split(text, ',')))
    ensures |names| == CountIf(Split(text, ','), NonBlank)
  {
    var parts := Split(text, ',');
    KeepNamesCommaFree(parts);
    KeepNames(parts)
  }

  lemma {:induction false} KeepNamesWellFormed(names: seq<string>)
    requires forall k | 0 <= k < |names| :: WellFormedName(names[k])
    ensures KeepNames(names) == names
    decreases |names|
  {
    if |names| > 0 {
      var tail := names[1..];
      assert names == [names[0]] + tail;
      assert forall k | 0 <= k < |tail| :: WellFormedName(tail[k]) by {
        forall k | 0 <= k < |tail|
          ensures WellFormedName(tail[k])
        {
          assert tail[k] == names[k + 1];
        }
      }
      KeepNamesWellFormed(tail);
      StripStripped(names[0]);
    }
  }

  /** Joining well-formed names with commas and parsing the text gives the
      same names back: order and duplicates are kept. */
  lemma ParseJoin(names: seq<string>)
    requires forall k | 0 <= k < |names| :: WellFormedName(names[k])
    ensures ParseNames(Join(names, ',')) == names
  {
    if |names| == 0 {
      ParseEmpty();
    } else {
      SplitJoin(names, ',');
      KeepNamesWellFormed(names);
    }
  }

  /** One leading whitespace character before a stripped text is dropped. */
  lemma StripAfterSpace(c: char, s: string)
    requires IsSpace(c) && Stripped(s)
    ensures Strip([c] + s) == s
  {
    assert ([c] + s)[1..] == s;
    assert TrimStart([c] + s) == TrimStart(s);
    StripStripped(s);
  }

  lemma SpacedPieces(text: string, first: string, second: string)
    requires text == "Aarav, Bhavana" && first == "Aarav" && second == " Bhavana"
    ensures Split(text, ',') == [first] + [second]
  {
    var pieces := [first, second];
    assert Join(pieces, ',') == text;
    assert forall k | 0 <= k < |pieces| :: ',' !in pieces[k];
    SplitJoin(pieces, ',');
  }

  /** An unfolding equation for `KeepNames`: the filter on a first piece and
      the rest. Which names the filter keeps is `KeepNames`'s contract. */
  lemma KeepNamesCons(t: string, rest: seq<string>)
    ensures KeepNames([t] + rest) == (if NonBlank(t) then [Strip(t)] else []) + KeepNames(rest)
  {
    assert ([t] + rest)[1..] == rest;
  }

  /** Two pieces that both survive the filter, stripped. */
  lemma KeepTwo(p: string, q: string)
    requires NonBlank(p) && NonBlank(q)
    ensures KeepNames([p] + [q]) == [Strip(p)] + [Strip(q)]
  {
    KeepNamesCons(q, []);
    KeepNamesCons(p, [q]);
  }

  lemma SpacedNames(a: string, b: string)
    requires a == "Aarav" && b == "Bhavana"
    ensures Strip(a) == a && Strip([' '] + b) == b && a != [] && b != []
  {
    assert a[0] == 'A' && a[4] == 'v' && b[0] == 'B' && b[6] == 'a';
    assert !IsSpace('A') && !IsSpace('v') && !IsSpace('B') && !IsSpace('a') && IsSpace(' ');
    StripAfterSpace(' ', b);
    StripStripped(a);
  }

  /** A space after the comma is stripped away: `"Aarav, Bhavana"` lists
      two names. */
  lemma ParseSpaced(text: string)
    requires text == "Aarav, Bhavana"
    ensures ParseNames(text) == ["Aarav", "Bhavana"]
  {
    var a, b := "Aarav", "Bhavana";
    SpacedPieces(text, a, [' '] + b);
    SpacedNames(a, b);
    KeepTwo(a, [' '] + b);
  }

  /** An empty text lists no names. */
  lemma ParseEmpty()
    ensures ParseNames("") == []
  {
    assert Split("", ',') == [""];
  }
}

=== FILE: pipeline.dfy ===
/** The agent pipeline of agent.py: the shared state, the six nodes and the
    fixed order in which the graph runs them. The language model, the vector
    stores, the JSON parser and `float` on strings are collaborators passed in
    as functions; the database writes are not modelled. */
module Pipeline {
  import opened Basics
  import opened Names
  import opened Awareness
  import opened Grader
  import StudyGroups
  import WeakConcepts

  type PainPoints = map<string, map<string, Json>>

  /** `PipelineState`: the two name lists and table names are always present;
      each node's output is absent until the node has run. */
  datatype State = State(
    concepts: seq<string>,
    students: seq<string>,
    homeworkTable: string,
    lessonTable: string,
    scores: Option<Scores>,
    painPoints: Option<PainPoints>,
    reports: Option<map<string, string>>,
    groups: Option<map<int, seq<string>>>,
    lessonPlans: Option<map<string, string>>,
    homework: Option<map<string, string>>)

  /** What the nodes call out to and the model does not look inside. */
  datatype Collaborators = Collaborators(
    /** `retrieve_student_context(vs, student, concept, k=6)` on the named table. */
    retrieve: (string, string, string) -> seq<Doc>,
    /** The scoring model's reply for a student, a concept and the evidence snippets. */
    grade: (string, string, seq<string>) -> string,
    /** `json.loads`, `None` where it raises. */
    parseJson: string -> Option<Json>,
    /** `float` on a string, `None` where it raises. */
    parseFloat: string -> Option<real>,
    /** The report written for a student from their scores and pain points. */
    report: (string, ScoreMap, map<string, Json>) -> string,
    /** The lesson plan for a weak concept, grounded in the named lesson table. */
    lessonPlan: (string, string) -> string,
    /** The homework for a student and their weak concepts, grounded in the
        named lesson table. */
    homework: (string, string, set<string>) -> string)

  /** `main.py`'s `init`: the parsed name lists and the two table names, and
      no node output yet. */
  function InitialState(studentText: string, conceptText: string, homeworkTable: string, lessonTable: string): (st: State)
    ensures forall k | 0 <= k < |st.students| :: WellFormedName(st.students[k])
    ensures forall k | 0 <= k < |st.concepts| :: WellFormedName(st.concepts[k])
    ensures |st.students| <= Occurrences(studentText, ',') + 1
    ensures |st.concepts| <= Occurrences(conceptText, ',') + 1
    ensures st.students == ParseNames(studentText) && st.concepts == ParseNames(conceptText)
    ensures st.homeworkTable == homeworkTable && st.lessonTable == lessonTable
    ensures forall names | forall k | 0 <= k < |names| :: WellFormedName(names[k]) ::
              studentText == Join(names, ',') ==> st.students == names
    ensures forall names | forall k | 0 <= k < |names| :: WellFormedName(names[k]) ::
              conceptText == Join(names, ',') ==> st.concepts == names
    ensures st.scores.None? && st.painPoints.None? && st.reports.None?
    ensures st.groups.None? && st.lessonPlans.None? && st.homework.None?
  {
    forall names | forall k | 0 <= k < |names| :: WellFormedName(names[k])
      ensures studentText == Join(names, ',') ==> ParseNames(studentText) == names
      ensures conceptText == Join(names, ',') ==> ParseNames(conceptText) == names
    {
      ParseJoin(names);
    }
    State(ParseNames(conceptText), ParseNames(studentText), homeworkTable, lessonTable,
          None, None, None, None, None, None)
  }

  /** `node_ingest`: uploads happen in the user interface, so the node passes
      the state through. */
  function NodeIngest(st: State): (r: State)
    ensures r == st
  {
    st
  }

  /** The scoring model's reply for a cell, given the snippets of the chunks
      retrieved for it. */
  function Reply(cl: Collaborators, table: string, student: string, concept: string): string {
    var docs := cl.retrieve(table, student, concept);
    cl.grade(student, concept, seq(|docs|, i requires 0 <= i < |docs| => Snippet(docs[i])))
  }

  /** An unfolding equation for `Reply`: the scoring model is asked about the
      student and concept with one snippet per retrieved chunk, in retrieval
      order. What a snippet holds is `Snippet`'s contract. */
  lemma ReplyAsks(cl: Collaborators, table: string, student: string, concept: string)
    ensures var docs := cl.retrieve(table, student, concept);
            exists snippets: seq<string> | |snippets| == |docs| && (forall i | 0 <= i < |docs| :: snippets[i] == Snippet(docs[i])) ::
              Reply(cl, table, student, concept) == cl.grade(student, concept, snippets)
  {
    var docs := cl.retrieve(table, student, concept);
    var snippets := seq(|docs|, i requires 0 <= i < |docs| => Snippet(docs[i]));
    assert Reply(cl, table, student, concept) == cl.grade(student, concept, snippets);
  }

  /** One cell of `node_evaluate`'s grid: the reply read by
      `score_comprehension`, then `float(result.get("score", 0))` with
      `result.get("pain_points", [])`. A record without a score scores 0, one
      without pain points has none; an error of either step aborts the cell. */
  function Cell(cl: Collaborators, table: string, student: string, concept: string): (r: Result<(real, Json)>)
    ensures var rec := ScoreComprehension(cl.parseJson, Reply(cl, table, student, concept));
            && (r.Success? <==> rec.Success? && ToFloat(rec.value["score"], cl.parseFloat).Success?)
            && (rec.Failure? ==> r.error == rec.error)
            && (rec.Success? && r.Failure? ==> r.error == ToFloat(rec.value["score"], cl.parseFloat).error)
            && (r.Success? ==> r.value.0 == ToFloat(rec.value["score"], cl.parseFloat).value)
            && (r.Success? ==> r.value.1 == rec.value["pain_points"])
    ensures var d := Decode(cl.parseJson, Reply(cl, table, student, concept));
            && (r.Success? && "score" !in d.value.fields ==> r.value.0 == 0.0)
            && (r.Success? && "pain_points" !in d.value.fields ==> r.value.1 == JArray([]))
            && (r.Success? && "score" in d.value.fields && d.value.fields["score"].JNumber? ==> r.value.0 == d.value.fields["score"].n)
  {
    var record :- ScoreComprehension(cl.parseJson, Reply(cl, table, student, concept));
    var score :- ToFloat(record["score"], cl.parseFloat);
    Success((score, record["pain_points"]))
  }

  /** A reply that does not parse and holds no `{` before a `}` still grades:
      score 0 and the single pain point of the fallback record. */
  lemma CellDegrades(cl: Collaborators, table: string, student: string, concept: string)
    requires var reply := Reply(cl, table, student, concept);
             cl.parseJson(reply).None? && !HasBracePair(reply)
    ensures Cell(cl, table, student, concept) == Success((0.0, JArray([JString("Unable to parse grader output")])))
  {
    UnparsableReply(cl.parseJson, Reply(cl, table, student, concept));
  }

  /** A grader for the cells of the grid: student and concept to score and
      pain points, or the error the cell raises. */
  type CellGrader = (string, string) -> Result<(real, Json)>

  /** `node_evaluate`'s grading of the cells against the named table. */
  function Grading(cl: Collaborators, table: string): CellGrader {
    (s, c) => Cell(cl, table, s, c)
  }

  /** Every cell of the grid grades without raising. */
  predicate CellsOk(cell: CellGrader, students: seq<string>, concepts: seq<string>) {
    forall s, c | s in students && c in concepts :: cell(s, c).Success?
  }

  /** The inner loop of `node_evaluate` for one student: fills the student's
      row one concept at a time and stops at the first cell that raises. */
  function EvalRow(cell: CellGrader, student: string, concepts: seq<string>,
                   row: ScoreMap, pts: map<string, Json>): (r: Result<(ScoreMap, map<string, Json>)>)
    ensures r.Success? <==> forall c | c in concepts :: cell(student, c).Success?
    ensures r.Failure? ==> exists c | c in concepts :: cell(student, c) == Failure(r.error)
    ensures r.Success? ==> r.value.0.Keys == row.Keys + Members(concepts) && r.value.1.Keys == pts.Keys + Members(concepts)
    ensures r.Success? ==> forall c | c in concepts ::
              r.value.0[c] == cell(student, c).value.0 && r.value.1[c] == cell(student, c).value.1
    ensures r.Success? ==> forall c | c in row && c !in concepts :: r.value.0[c] == row[c]
    ensures r.Success? ==> forall c | c in pts && c !in concepts :: r.value.1[c] == pts[c]
    decreases |concepts|
  {
    if concepts == [] then Success((row, pts))
    else
      var c := concepts[0];
      assert concepts == [c] + concepts[1..];
      match cell(student, c)
      case Failure(e) => Failure(e)
      case Success(v) => EvalRow(cell, student, concepts[1..], row[c := v.0], pts[c := v.1])
  }

  /** The outer loop of `node_evaluate`: each student's row starts empty. */
  function EvalGrid(cell: CellGrader, students: seq<string>, concepts: seq<string>,
                    scores: Scores, pains: PainPoints): (r: Result<(Scores, PainPoints)>)
    ensures r.Success? <==> CellsOk(cell, students, concepts)
    ensures r.Failure? ==> exists s, c | s in students && c in concepts :: cell(s, c) == Failure(r.error)
    ensures r.Success? ==> r.value.0.Keys == scores.Keys + Members(students) && r.value.1.Keys == pains.Keys + Members(students)
    decreases |students|
  {
    if students == [] then Success((scores, pains))
    else
      var s := students[0];
      assert students == [s] + students[1..];
      match EvalRow(cell, s, concepts, map[], map[])
      case Failure(e) => Failure(e)
      case Success(row) => EvalGrid(cell, students[1..], concepts, scores[s := row.0], pains[s := row.1])
  }

  /** Students not listed keep the rows they had. */
  lemma {:induction false} EvalGridFrame(cell: CellGrader, students: seq<string>, concepts: seq<string>,
                                         scores: Scores, pains: PainPoints)
    requires CellsOk(cell, students, concepts)
    ensures var r := EvalGrid(cell, students, concepts, scores, pains).value;
            && (forall s | s in scores && s !in students :: r.0[s] == scores[s])
            && (forall s | s in pains && s !in students :: r.1[s] == pains[s])
    decreases |students|
  {
    if students != [] {
      var s := students[0];
      assert students == [s] + students[1..];
      var row := EvalRow(cell, s, concepts, map[], map[]);
      EvalGridFrame(cell, students[1..], concepts, scores[s := row.value.0], pains[s := row.value.1]);
    }
  }

  /** A student's row holds exactly the listed concepts, each with that
      cell's score and pain points. */
  predicate RowOf(cell: CellGrader, s: string, concepts: seq<string>, sc: ScoreMap, pp: map<string, Json>) {
    && sc.Keys == Members(concepts) && pp.Keys == Members(concepts)
    && forall c | c in concepts :: c in sc && c in pp && cell(s, c) == Success((sc[c], pp[c]))
  }

  /** The inner loop from empty rows fills a row as `RowOf` says. */
  lemma EvalRowOf(cell: CellGrader, s: string, concepts: seq<string>)
    requires forall c | c in concepts :: cell(s, c).Success?
    ensures var row := EvalRow(cell, s, concepts, map[], map[]).value;
            RowOf(cell, s, concepts, row.0, row.1)
  {
  }

  /** Each listed student's row holds exactly the listed concepts, each with
      that cell's score and pain points. */
  lemma {:induction false} EvalGridCells(cell: CellGrader, students: seq<string>, concepts: seq<string>,
                                         scores: Scores, pains: PainPoints)
    requires CellsOk(cell, students, concepts)
    ensures var r := EvalGrid(cell, students, concepts, scores, pains).value;
            forall s | s in students :: s in r.0 && s in r.1 && RowOf(cell, s, concepts, r.0[s], r.1[s])
    decreases |students|
  {
    if students != [] {
      var s := students[0];
      var rest := students[1..];
      assert students == [s] + rest;
      var row := EvalRow(cell, s, concepts, map[], map[]).value;
      EvalRowOf(cell, s, concepts);
      var scores', pains' := scores[s := row.0], pains[s := row.1];
      EvalGridCells(cell, rest, concepts, scores', pains');
      EvalGridFrame(cell, rest, concepts, scores', pains');
      var r := EvalGrid(cell, students, concepts, scores, pains).value;
      assert r == EvalGrid(cell, rest, concepts, scores', pains').value;
      forall t | t in students
        ensures t in r.0 && t in r.1 && RowOf(cell, t, concepts, r.0[t], r.1[t])
      {
        if t !in rest {
          assert t == s;
        }
      }
    }
  }

  /** `node_evaluate`: scores and pain points for every listed student and
      concept, each taken from that cell's graded record; any cell that raises
      aborts the node. Only `scores` and `pain_points` change. */
  function NodeEvaluate(cl: Collaborators, st: State): (r: Result<State>)
    ensures var cell := Grading(cl, st.homeworkTable);
            && (r.Success? <==> CellsOk(cell, st.students, st.concepts))
            && (r.Failure? ==> exists s, c | s in st.students && c in st.concepts :: cell(s, c) == Failure(r.error))
    ensures r.Success? ==> r.value == st.(scores := r.value.scores, painPoints := r.value.painPoints)
    ensures r.Success? ==> r.value.scores.Some? && r.value.painPoints.Some?
    ensures r.Success? ==> r.value.scores.value.Keys == Members(st.students) && r.value.painPoints.value.Keys == Members(st.students)
    ensures r.Success? ==> forall s | s in st.students ::
              RowOf(Grading(cl, st.homeworkTable), s, st.concepts, r.value.scores.value[s], r.value.painPoints.value[s])
  {
    var cell := Grading(cl, st.homeworkTable);
    var grid :- EvalGrid(cell, st.students, st.concepts, map[], map[]);
    EvalGridCells(cell, st.students, st.concepts, map[], map[]);
    Success(st.(scores := Some(grid.0), painPoints := Some(grid.1)))
  }

  /** `node_reports`' loop: a report per student, raising `KeyError` for a
      missing `scores` or `pain_points` field or a student missing from either,
      in the order the loop looks them up. */
  function ReportRows(cl: Collaborators, students: seq<string>, scores: Option<Scores>, pains: Option<PainPoints>,
                      acc: map<string, string>): (r: Result<map<string, string>>)
    ensures r.Success? <==> (students == [] || (scores.Some? && pains.Some? &&
              forall s | s in students :: s in scores.value && s in pains.value))
    ensures r.Success? ==> r.value.Keys == acc.Keys + Members(students)
    ensures r.Success? ==> forall s | s in students :: r.value[s] == cl.report(s, scores.value[s], pains.value[s])
    ensures r.Success? ==> forall s | s in acc && s !in students :: r.value[s] == acc[s]
    decreases |students|
  {
    if students == [] then Success(acc)
    else
      var s := students[0];
      assert students == [s] + students[1..];
      if scores.None? then Failure(KeyError("scores"))
      else if s !in scores.value then Failure(KeyError(s))
      else if pains.None? then Failure(KeyError("pain_points"))
      else if s !in pains.value then Failure(KeyError(s))
      else ReportRows(cl, students[1..], scores, pains, acc[s := cl.report(s, scores.value[s], pains.value[s])])
  }

  /** `node_reports`: only `reports` changes. */
  function NodeReports(cl: Collaborators, st: State): (r: Result<State>)
    ensures r.Success? <==> (st.students == [] || (st.scores.Some? && st.painPoints.Some? &&
              forall s | s in st.students :: s in st.scores.value && s in st.painPoints.value))
    ensures r.Success? ==> r.value == st.(reports := r.value.reports)
    ensures r.Success? ==> r.value.reports.Some? && r.value.reports.value.Keys == Members(st.students)
  {
    var reports :- ReportRows(cl, st.students, st.scores, st.painPoints, map[]);
    Success(st.(reports := Some(reports)))
  }

  /** The group size the pipeline asks for. */
  const GroupSize: nat := 2

  /** `node_knowledge_graph_and_groups`: groups of two over the scored
      students. Only `groups` changes. */
  function NodeKgGroups(st: State): (r: Result<State>)
    ensures r.Success? <==> st.scores.Some?
    ensures r.Success? ==> r.value == st.(groups := r.value.groups)
    ensures r.Success? ==> r.value.groups == Some(StudyGroups.BuildStudyGroups(st.scores.value, st.concepts, GroupSize))
  {
    if st.scores.None? then Failure(KeyError("scores"))
    else Success(st.(groups := Some(StudyGroups.BuildStudyGroups(st.scores.value, st.concepts, GroupSize))))
  }

  /** `node_lesson_plans`: a plan for each cohort-weak concept. The loop reads
      `scores` only when there are both concepts and students. Only
      `lesson_plans` changes. */
  function NodeLessons(cl: Collaborators, st: State): (r: Result<State>)
    ensures r.Success? <==> (st.concepts == [] ||
              (st.students != [] && st.scores.Some? && WeakConcepts.AllScored(st.scores.value, st.students)))
    ensures r.Success? ==> r.value == st.(lessonPlans := r.value.lessonPlans) && r.value.lessonPlans.Some?
    ensures r.Success? && st.concepts == [] ==> r.value.lessonPlans == Some(map[])
    ensures r.Success? && st.scores.Some? ==> var weak := WeakConcepts.Weak(st.scores.value, st.students, st.concepts).value;
              && r.value.lessonPlans.value.Keys == Members(weak)
              && forall c | c in weak :: r.value.lessonPlans.value[c] == cl.lessonPlan(st.lessonTable, c)
  {
    if st.concepts != [] && st.students != [] && st.scores.None? then Failure(KeyError("scores"))
    else
      var weak :- WeakConcepts.Weak(st.scores.GetOr(map[]), st.students, st.concepts);
      Success(st.(lessonPlans := Some(map c | c in Members(weak) :: cl.lessonPlan(st.lessonTable, c))))
  }

  /** The homework given to a student with no weak concept. */
  const Congratulation: string := "🎉 Great job! No targeted homework—consider enrichment tasks from lesson resources."

  /** `node_homework`'s loop: each student's homework targets the concepts
      they scored below 70, or is the congratulation when there are none. */
  function HomeworkRows(cl: Collaborators, table: string, students: seq<string>, scores: Option<Scores>,
                        acc: map<string, string>): (r: Result<map<string, string>>)
    ensures r.Success? <==> students == [] || (scores.Some? && forall s | s in students :: s in scores.value)
    ensures r.Success? ==> r.value.Keys == acc.Keys + Members(students)
    ensures r.Success? ==> forall s | s in students ::
              r.value[s] == if WeakFor(scores.value[s]) == {} then Congratulation
                            else cl.homework(table, s, WeakFor(scores.value[s]))
    ensures r.Success? ==> forall s | s in acc && s !in students :: r.value[s] == acc[s]
    decreases |students|
  {
    if students == [] then Success(acc)
    else
      var s := students[0];
      assert students == [s] + students[1..];
      if scores.None? then Failure(KeyError("scores"))
      else if s !in scores.value then Failure(KeyError(s))
      else
        var weak := WeakFor(scores.value[s]);
        var hw := if weak == {} then Congratulation else cl.homework(table, s, weak);
        HomeworkRows(cl, table, students[1..], scores, acc[s := hw])
  }

  /** `node_homework`: only `homework` changes. */
  function NodeHomework(cl: Collaborators, st: State): (r: Result<State>)
    ensures r.Success? <==> st.students == [] || (st.scores.Some? && forall s | s in st.students :: s in st.scores.value)
    ensures r.Success? ==> r.value == st.(homework := r.value.homework)
    ensures r.Success? ==> r.value.homework.Some? && r.value.homework.value.Keys == Members(st.students)
  {
    var hw :- HomeworkRows(cl, st.lessonTable, st.students, st.scores, map[]);
    Success(st.(homework := Some(hw)))
  }

  /** The nodes of the graph, and its end. */
  datatype Stage = Ingest | Evaluate | Reports | KgGroups | Lessons | Homework | End

  /** The stage's place in the run. */
  function Index(s: Stage): nat {
    match s
    case Ingest => 0
    case Evaluate => 1
    case Reports => 2
    case KgGroups => 3
    case Lessons => 4
    case Homework => 5
    case End => 6
  }

  /** The graph's edges: each node has exactly one successor. */
  function Next(s: Stage): (t: Stage)
    requires s != End
    ensures Index(t) == Index(s) + 1
  {
    match s
    case Ingest => Evaluate
    case Evaluate => Reports
    case Reports => KgGroups
    case KgGroups => Lessons
    case Lessons => Homework
    case Homework => End
  }

  /** The stage reached after `n` edges from the entry point. */
  function After(n: nat): (s: Stage)
    requires n <= 6
    ensures Index(s) == n
  {
    if n == 0 then Ingest else Next(After(n - 1))
  }

  /** The order is linear and total: every stage is reached exactly once, at
      its index, and `End` is reached after all six nodes. */
  lemma StageOrder()
    ensures forall s: Stage :: After(Index(s)) == s
    ensures After(6) == End
  {
    forall s: Stage
      ensures After(Index(s)) == s
    {
      match s
      case Ingest =>
      case Evaluate =>
      case Reports =>
      case KgGroups =>
      case Lessons =>
      case Homework =>
      case End =>
    }
  }

  /** The node that runs at a stage. */
  function Apply(cl: Collaborators, s: Stage, st: State): Result<State>
    requires s != End
  {
    match s
    case Ingest => Success(NodeIngest(st))
    case Evaluate => NodeEvaluate(cl, st)
    case Reports => NodeReports(cl, st)
    case KgGroups => NodeKgGroups(st)
    case Lessons => NodeLessons(cl, st)
    case Homework => NodeHomework(cl, st)
  }

  /** The compiled graph run from stage `s`: apply nodes along the edges
      until `End`; a node that raises ends the run with its error. */
  function RunFrom(cl: Collaborators, s: Stage, st: State): Result<State>
    decreases 6 - Index(s)
  {
    if s == End then Success(st)
    else
      var next :- Apply(cl, s, st);
      RunFrom(cl, Next(s), next)
  }

  /** `graph.invoke(init)`: the nodes never change the name lists or the
      table names they were given. */
  function Run(cl: Collaborators, st: State): (r: Result<State>)
    ensures r.Success? ==> SameInputs(r.value, st)
  {
    RunFromKeepsInputs(cl, Ingest, st);
    RunFrom(cl, Ingest, st)
  }

  /** The fields `main.py` fills in before the run are the same in both states. */
  predicate SameInputs(a: State, b: State) {
    && a.concepts == b.concepts && a.students == b.students
    && a.homeworkTable == b.homeworkTable && a.lessonTable == b.lessonTable
  }

  /** No node writes the fields set up before the run. */
  lemma ApplyKeepsInputs(cl: Collaborators, s: Stage, st: State)
    requires s != End
    ensures Apply(cl, s, st).Success? ==> SameInputs(Apply(cl, s, st).value, st)
  {
  }

  /** A run from any stage leaves the fields set up before the run alone. */
  lemma {:induction false} RunFromKeepsInputs(cl: Collaborators, s: Stage, st: State)
    ensures RunFrom(cl, s, st).Success? ==> SameInputs(RunFrom(cl, s, st).value, st)
    decreases 6 - Index(s)
  {
    if s != End {
      RunStep(cl, s, st);
      ApplyKeepsInputs(cl, s, st);
      var a := Apply(cl, s, st);
      if a.Success? {
        RunFromKeepsInputs(cl, Next(s), a.value);
      }
    }
  }

  /** An unfolding equation for `RunFrom`: one edge of a run. The run's
      outcome is stated by `RunSucceeds` and `RunOutputs`. */
  lemma RunStep(cl: Collaborators, s: Stage, st: State)
    requires s != End
    ensures RunFrom(cl, s, st) ==
      match Apply(cl, s, st)
      case Failure(e) => Failure(e)
      case Success(after) => RunFrom(cl, Next(s), after)
  {
  }

  lemma RunFromHomework(cl: Collaborators, st: State)
    ensures RunFrom(cl, Homework, st) == NodeHomework(cl, st)
  {
    RunStep(cl, Homework, st);
  }

  lemma RunFromLessons(cl: Collaborators, st: State)
    ensures RunFrom(cl, Lessons, st) ==
      if NodeLessons(cl, st).Failure? then Failure(NodeLessons(cl, st).error)
      else NodeHomework(cl, NodeLessons(cl, st).value)
  {
    RunStep(cl, Lessons, st);
    if NodeLessons(cl, st).Success? {
      RunFromHomework(cl, NodeLessons(cl, st).value);
    }
  }

  lemma RunFromKgGroups(cl: Collaborators, st: State)
    ensures RunFrom(cl, KgGroups, st) ==
      if NodeKgGroups(st).Failure? then Failure(NodeKgGroups(st).error)
      else RunFrom(cl, Lessons, NodeKgGroups(st).value)
  {
    RunStep(cl, KgGroups, st);
  }

  lemma RunFromReports(cl: Collaborators, st: State)
    ensures RunFrom(cl, Reports, st) ==
      if NodeReports(cl, st).Failure? then Failure(NodeReports(cl, st).error)
      else RunFrom(cl, KgGroups, NodeReports(cl, st).value)
  {
    RunStep(cl, Reports, st);
  }

  /** An unfolding equation for a run from the entry point: `ingest` passes
      the state on, then `evaluate`, and the rest of the graph from
      `reports`. */
  lemma RunFromIngest(cl: Collaborators, st: State)
    ensures Run(cl, st) ==
      if NodeEvaluate(cl, NodeIngest(st)).Failure? then Failure(NodeEvaluate(cl, NodeIngest(st)).error)
      else RunFrom(cl, Reports, NodeEvaluate(cl, NodeIngest(st)).value)
  {
    RunStep(cl, Ingest, st);
    RunStep(cl, Evaluate, NodeIngest(st));
  }

  /** A state whose scores cover exactly the listed students. */
  predicate Scored(st: State) {
    st.scores.Some? && st.scores.value.Keys == Members(st.students)
  }

  /** From `lesson_plans` on, a scored run fails only on an empty cohort
      with concepts listed. */
  lemma LessonsTail(cl: Collaborators, st: State)
    requires Scored(st)
    ensures RunFrom(cl, Lessons, st).Success? <==> !(st.students == [] && st.concepts != [])
    ensures st.students == [] && st.concepts != [] ==> RunFrom(cl, Lessons, st) == Failure(IndexError)
  {
    RunFromLessons(cl, st);
    if st.students == [] && st.concepts != [] {
      assert WeakConcepts.Weak(st.scores.value, st.students, st.concepts) == Failure(IndexError);
    }
  }

  lemma KgGroupsTail(cl: Collaborators, st: State)
    requires Scored(st)
    ensures RunFrom(cl, KgGroups, st).Success? <==> !(st.students == [] && st.concepts != [])
    ensures st.students == [] && st.concepts != [] ==> RunFrom(cl, KgGroups, st) == Failure(IndexError)
  {
    RunFromKgGroups(cl, st);
    LessonsTail(cl, NodeKgGroups(st).value);
  }

  lemma ReportsTail(cl: Collaborators, st: State)
    requires Scored(st) && st.painPoints.Some? && st.painPoints.value.Keys == Members(st.students)
    ensures RunFrom(cl, Reports, st).Success? <==> !(st.students == [] && st.concepts != [])
    ensures st.students == [] && st.concepts != [] ==> RunFrom(cl, Reports, st) == Failure(IndexError)
  {
    RunFromReports(cl, st);
    KgGroupsTail(cl, NodeReports(cl, st).value);
  }

  /** In the model, a run completes exactly when every cell of the grid
      grades and the cohort is not empty while concepts are listed (the median
      lookup of `node_lesson_plans` would raise `IndexError`). With the
      collaborators total, nothing else fails: the nodes after `evaluate`
      find every student they look up. */
  lemma RunSucceeds(cl: Collaborators, st: State)
    ensures Run(cl, st).Success? <==>
              CellsOk(Grading(cl, st.homeworkTable), st.students, st.concepts) && !(st.students == [] && st.concepts != [])
    ensures st.students == [] && st.concepts != [] ==> Run(cl, st) == Failure(IndexError)
  {
    RunFromIngest(cl, st);
    var e := NodeEvaluate(cl, NodeIngest(st));
    if e.Success? {
      ReportsTail(cl, e.value);
    }
  }

  /** After a completed run every node's output is present: scores, reports
      and homework for every student, a lesson plan for exactly the
      cohort-weak concepts, and groups of two that partition the students.
      The run is stated from the entry point, which is what `Run` does. */
  lemma RunOutputs(cl: Collaborators, st: State)
    requires RunFrom(cl, Ingest, st).Success?
    ensures var out := Run(cl, st).value;
            && out.concepts == st.concepts && out.students == st.students
            && out.scores.Some? && out.scores.value.Keys == Members(st.students)
            && out.painPoints.Some? && out.painPoints.value.Keys == Members(st.students)
            && out.reports.Some? && out.reports.value.Keys == Members(st.students)
            && out.homework.Some? && out.homework.value.Keys == Members(st.students)
            && out.lessonPlans.Some?
            && (forall c :: c in out.lessonPlans.value <==>
                  c in st.concepts && WeakConcepts.CohortWeak(out.scores.value, st.students, c))
            && out.groups.Some?
            && (forall s :: s in st.students <==> exists i | i in out.groups.value :: s in out.groups.value[i])
            && (forall i, j, s | i in out.groups.value && j in out.groups.value && i != j && s in out.groups.value[i] ::
                  s !in out.groups.value[j])
  {
    RunFromIngest(cl, st);
    var s2 := NodeEvaluate(cl, NodeIngest(st)).value;
    RunFromReports(cl, s2);
    var s3 := NodeReports(cl, s2).value;
    RunFromKgGroups(cl, s3);
    var s4 := NodeKgGroups(s3).value;
    RunFromLessons(cl, s4);
    var s5 := NodeLessons(cl, s4).value;
    var out := NodeHomework(cl, s5).value;
    assert out.scores == s2.scores && out.groups == s4.groups && out.lessonPlans == s5.lessonPlans;
    StudyGroups.BuildStudyGroupsPartition(s2.scores.value, st.concepts, GroupSize);
    assert forall s :: s in s2.scores.value <==> s in st.students;
  }
}

=== FILE: studygroups.dfy ===
/** build_study_groups: a greedy partition of the students into groups of a
    target size, each grown to cover as many concepts as possible.

    Python's `max` over a set keeps the first maximizer in the set's
    iteration order, which is unspecified. Here the unassigned students are
    kept in ascending name order and the first maximizer is taken, so a tie
    goes to the smallest name. */
module StudyGroups {
  import opened Basics
  import opened Lex
  import opened Awareness

  /** What the grouping reads: the listed concepts and their aware sets. */
  datatype Cohort = Cohort(concepts: seq<string>, aware: map<string, set<string>>)

  /** The number of concepts `s` is aware of: the seed's ranking. */
  function SeedKey(k: Cohort, s: string): nat {
    AwareCount(k.aware, k.concepts, s)
  }

  /** The concepts the group covers. */
  function Covered(k: Cohort, group: seq<string>): set<string> {
    Coverage(k.aware, k.concepts, Members(group))
  }

  /** `len(coverage(group | {s}) - covered)`: the concepts `s` would add. */
  function Gain(k: Cohort, group: seq<string>, s: string): nat {
    |Coverage(k.aware, k.concepts, Members(group) + {s}) - Covered(k, group)|
  }

  /** The seed key of the grouping's cohort counts the listed concepts
      (repeats counted) on which `s` scores at least 70. */
  lemma SeedKeyCounts(scores: Scores, concepts: seq<string>, s: string)
    ensures SeedKey(Cohort(concepts, AwareMap(scores, concepts)), s) == CountIf(concepts, AwareOf(scores, s))
  {
    AwareMapCount(scores, concepts, s);
  }

  /** The gain of `s` is the number of listed concepts that `s` is aware of
      and that the group does not cover yet. */
  lemma GainCounts(k: Cohort, group: seq<string>, s: string)
    ensures Gain(k, group, s) ==
              |set c | c in k.concepts && c in k.aware && s in k.aware[c] && c !in Covered(k, group)|
  {
    var added := Coverage(k.aware, k.concepts, Members(group) + {s}) - Covered(k, group);
    var unseen := set c | c in k.concepts && c in k.aware && s in k.aware[c] && c !in Covered(k, group);
    forall c
      ensures c in added <==> c in unseen
    {
      CoverageMembership(k.aware, k.concepts, Members(group) + {s}, c);
      CoverageMembership(k.aware, k.concepts, Members(group), c);
      if c in unseen {
        assert s in k.aware[c] * (Members(group) + {s});
      }
    }
    assert added == unseen;
  }

  /** The two ranking keys as functions of the student. */
  function SeedKeyOf(k: Cohort): string -> int {
    s => SeedKey(k, s)
  }

  function GainOf(k: Cohort, group: seq<string>): string -> int {
    s => Gain(k, group, s)
  }

  /** `max(cands, key=key)`: the index of the first candidate whose key is
      largest. */
  function FirstMax(cands: seq<string>, key: string -> int): (i: nat)
    requires |cands| > 0
    ensures i < |cands|
    ensures forall x | x in cands :: key(x) <= key(cands[i])
    ensures forall j | 0 <= j < i :: key(cands[j]) < key(cands[i])
  {
    if |cands| == 1 then 0
    else
      var j := 1 + FirstMax(cands[1..], key);
      assert forall x | x in cands :: x == cands[0] || x in cands[1..];
      if key(cands[j]) > key(cands[0]) then j else 0
  }

  /** In an ascending candidate list the first maximizer has the smallest
      name of all maximizers. */
  lemma FirstMaxSmallestName(cands: seq<string>, key: string -> int)
    requires |cands| > 0 && StrictlySorted(cands)
    ensures forall x | x in cands && key(x) == key(cands[FirstMax(cands, key)]) :: LessEq(cands[FirstMax(cands, key)], x)
  {
    var i := FirstMax(cands, key);
    forall x | x in cands && key(x) == key(cands[i])
      ensures LessEq(cands[i], x)
    {
      var j :| 0 <= j < |cands| && cands[j] == x;
      if j == i {
        LessEqReflexive(x);
      }
    }
  }

  lemma SortedIsDistinct(s: seq<string>)
    requires StrictlySorted(s)
    ensures Distinct(s)
  {
  }

  /** The state of a round: group members and unassigned students, each
      student at most once in all. */
  predicate Pool(group: seq<string>, unassigned: seq<string>) {
    && Distinct(group)
    && Distinct(unassigned)
    && (forall x | x in group :: x !in unassigned)
  }

  /** Every pick of `picks` from index `from` on was a largest-gain choice among
      the students of `pool` not yet picked. */
  predicate GreedyFrom(k: Cohort, pool: set<string>, picks: seq<string>, from: nat) {
    forall n, x | from <= n < |picks| && x in pool && x !in picks[..n] :: Gain(k, picks[..n], x) <= Gain(k, picks[..n], picks[n])
  }

  lemma RemoveAtSorted(s: seq<string>, i: nat)
    requires i < |s| && StrictlySorted(s)
    ensures StrictlySorted(RemoveAt(s, i))
  {
    var u := RemoveAt(s, i);
    forall a, b | 0 <= a < b < |u|
      ensures LessEq(u[a], u[b]) && u[a] != u[b]
    {
      var a' := if a < i then a else a + 1;
      var b' := if b < i then b else b + 1;
      assert u[a] == s[a'] && u[b] == s[b'];
    }
  }

  /** Moving `unassigned[i]` into the group keeps a pool and loses no one. */
  lemma MoveKeepsPool(group: seq<string>, unassigned: seq<string>, i: nat)
    requires i < |unassigned| && Pool(group, unassigned)
    ensures Pool(group + [unassigned[i]], RemoveAt(unassigned, i))
    ensures multiset(group + [unassigned[i]]) + multiset(RemoveAt(unassigned, i)) == multiset(group) + multiset(unassigned)
  {
    var p := unassigned[i];
    var u := RemoveAt(unassigned, i);
    RemoveAtElements(unassigned, i);
    assert unassigned == unassigned[..i] + [p] + unassigned[i + 1..];
    assert p !in group;
    var g := group + [p];
    forall a, b | 0 <= a < b < |g|
      ensures g[a] != g[b]
    {
      if b == |group| {
        assert g[a] in group;
      }
    }
  }

  /** One pick: move the largest-gain unassigned student into the group. */
  function Step(k: Cohort, group: seq<string>, unassigned: seq<string>): (r: (seq<string>, seq<string>))
    requires |unassigned| > 0
    requires Pool(group, unassigned)
    ensures Pool(r.0, r.1)
    ensures |r.1| == |unassigned| - 1 && |r.0| == |group| + 1
    ensures r.0[..|group|] == group && r.0[|group|] in unassigned
    ensures multiset(r.0) + multiset(r.1) == multiset(group) + multiset(unassigned)
  {
    var i := FirstMax(unassigned, GainOf(k, group));
    MoveKeepsPool(group, unassigned, i);
    assert (group + [unassigned[i]])[..|group|] == group;
    (group + [unassigned[i]], RemoveAt(unassigned, i))
  }

  lemma StepKeepsMembers(k: Cohort, group: seq<string>, unassigned: seq<string>)
    requires |unassigned| > 0 && Pool(group, unassigned)
    ensures var r := Step(k, group, unassigned);
            Members(r.0) + Members(r.1) == Members(group) + Members(unassigned)
  {
    var r := Step(k, group, unassigned);
    SplitMembers(r.0, r.1, group + unassigned);
  }

  /** The student a step adds has a largest gain among the unassigned. */
  lemma StepIsGreedy(k: Cohort, group: seq<string>, unassigned: seq<string>)
    requires |unassigned| > 0 && Pool(group, unassigned)
    ensures forall x | x in unassigned :: Gain(k, group, x) <= Gain(k, group, Step(k, group, unassigned).0[|group|])
  {
  }

  /** Closes the greedy property over one more pick: if the group after one
      step, `next`, took a largest gain, the picks extend `next`, and every
      later pick was greedy, then all picks from `|group|` on were. */
  lemma GreedyStep(k: Cohort, pool: set<string>, group: seq<string>, unassigned: seq<string>, next: seq<string>, picks: seq<string>)
    requires |next| == |group| + 1 && next[..|group|] == group
    requires |next| <= |picks| && picks[..|next|] == next
    requires forall x | x in pool && x !in group :: x in unassigned
    requires forall x | x in unassigned :: Gain(k, group, x) <= Gain(k, group, next[|group|])
    requires GreedyFrom(k, pool, picks, |next|)
    ensures GreedyFrom(k, pool, picks, |group|)
  {
    assert picks[..|group|] == group by {
      assert picks[..|group|] == picks[..|next|][..|group|];
    }
    assert picks[|group|] == next[|group|] by {
      assert picks[|group|] == picks[..|next|][|group|];
    }
    forall n, x | |group| <= n < |picks| && x in pool && x !in picks[..n]
      ensures Gain(k, picks[..n], x) <= Gain(k, picks[..n], picks[n])
    {
      if n == |group| {
        assert x in unassigned;
      }
    }
  }

  /** The coverage phase: while some listed concept is uncovered, the group is
      below `target` and students remain, add the largest-gain student. */
  function Extend(k: Cohort, target: nat, group: seq<string>, unassigned: seq<string>): (r: (seq<string>, seq<string>))
    requires Pool(group, unassigned)
    ensures Pool(r.0, r.1)
    ensures Covered(k, r.0) == Members(k.concepts) || |r.0| >= target || |r.1| == 0
    ensures |group| <= |r.0| <= if |group| >= target then |group| else target
    ensures r.0[..|group|] == group
    ensures multiset(r.0) + multiset(r.1) == multiset(group) + multiset(unassigned)
    decreases |unassigned|
  {
    if Covered(k, group) != Members(k.concepts) && |group| < target && |unassigned| > 0 then
      var s := Step(k, group, unassigned);
      var r := Extend(k, target, s.0, s.1);
      ExtendCompose(target, group, unassigned, s, r);
      r
    else (group, unassigned)
  }

  /** A pick followed by the rest of the coverage phase keeps the coverage
      phase's promises about sizes, order and members. */
  lemma ExtendCompose(target: nat, group: seq<string>, unassigned: seq<string>, s: (seq<string>, seq<string>), r: (seq<string>, seq<string>))
    requires |group| < target && |unassigned| > 0
    requires |s.0| == |group| + 1 && s.0[..|group|] == group
    requires multiset(s.0) + multiset(s.1) == multiset(group) + multiset(unassigned)
    requires |s.0| <= |r.0| <= if |s.0| >= target then |s.0| else target
    requires r.0[..|s.0|] == s.0
    requires multiset(r.0) + multiset(r.1) == multiset(s.0) + multiset(s.1)
    ensures |group| <= |r.0| <= target
    ensures r.0[..|group|] == group
    ensures multiset(r.0) + multiset(r.1) == multiset(group) + multiset(unassigned)
  {
    assert r.0[..|group|] == r.0[..|s.0|][..|group|];
  }

  /** The fill phase: while the group is below `target` and students remain,
      add the largest-gain student, even when no one adds a concept. The group
      ends at `target` members or with every student taken, and keeps the
      students it started with. */
  function Fill(k: Cohort, target: nat, group: seq<string>, unassigned: seq<string>): (r: (seq<string>, seq<string>))
    requires Pool(group, unassigned)
    ensures Pool(r.0, r.1)
    ensures |group| <= |r.0| && r.0[..|group|] == group
    ensures |r.0| == if |group| >= target then |group| else Min(target, |group| + |unassigned|)
    ensures |r.0| + |r.1| == |group| + |unassigned|
    ensures multiset(r.0) + multiset(r.1) == multiset(group) + multiset(unassigned)
    decreases |unassigned|
  {
    if |group| < target && |unassigned| > 0 then
      var s := Step(k, group, unassigned);
      var r := Fill(k, target, s.0, s.1);
      FillCompose(target, group, unassigned, s, r);
      r
    else (group, unassigned)
  }

  /** A pick followed by the rest of the fill phase keeps the fill phase's
      promises about sizes, order and members. */
  lemma FillCompose(target: nat, group: seq<string>, unassigned: seq<string>, s: (seq<string>, seq<string>), r: (seq<string>, seq<string>))
    requires |group| < target && |unassigned| > 0
    requires |s.1| == |unassigned| - 1 && |s.0| == |group| + 1 && s.0[..|group|] == group
    requires multiset(s.0) + multiset(s.1) == multiset(group) + multiset(unassigned)
    requires |s.0| <= |r.0| && r.0[..|s.0|] == s.0
    requires |r.0| == if |s.0| >= target then |s.0| else Min(target, |s.0| + |s.1|)
    requires |r.0| + |r.1| == |s.0| + |s.1|
    requires multiset(r.0) + multiset(r.1) == multiset(s.0) + multiset(s.1)
    ensures |group| <= |r.0| && r.0[..|group|] == group
    ensures |r.0| == Min(target, |group| + |unassigned|)
    ensures |r.0| + |r.1| == |group| + |unassigned|
    ensures multiset(r.0) + multiset(r.1) == multiset(group) + multiset(unassigned)
  {
    assert r.0[..|group|] == r.0[..|group| + 1][..|group|];
  }

  /** Every student the fill phase adds had a largest gain among the students
      still unassigned at that moment. */
  lemma {:induction false} FillIsGreedy(k: Cohort, target: nat, group: seq<string>, unassigned: seq<string>)
    requires Pool(group, unassigned)
    ensures GreedyFrom(k, Members(group) + Members(unassigned), Fill(k, target, group, unassigned).0, |group|)
    decreases |unassigned|
  {
    if |group| < target && |unassigned| > 0 {
      var s := Step(k, group, unassigned);
      FillIsGreedy(k, target, s.0, s.1);
      var r := Fill(k, target, s.0, s.1);
      StepKeepsMembers(k, group, unassigned);
      StepIsGreedy(k, group, unassigned);
      GreedyStep(k, Members(group) + Members(unassigned), group, unassigned, s.0, r.0);
    }
  }

  /** The coverage phase followed by the fill phase is the fill phase alone:
      both pick by the same rule and the fill phase's loop condition is the
      weaker one. */
  lemma {:induction false} ExtendThenFill(k: Cohort, target: nat, group: seq<string>, unassigned: seq<string>)
    requires Pool(group, unassigned)
    ensures var e := Extend(k, target, group, unassigned);
            Fill(k, target, e.0, e.1) == Fill(k, target, group, unassigned)
    decreases |unassigned|
  {
    if Covered(k, group) != Members(k.concepts) && |group| < target && |unassigned| > 0 {
      var s := Step(k, group, unassigned);
      ExtendThenFill(k, target, s.0, s.1);
    }
  }

  /** The size groups get: `target_size`, except that a target of 0 still
      takes the seed. */
  function Capacity(target: nat): nat {
    if target == 0 then 1 else target
  }

  /** In an ascending list the empty name, if present, comes first. */
  lemma EmptyNameFirst(s: seq<string>)
    requires StrictlySorted(s) && "" in s
    ensures s[0] == ""
  {
    var j :| 0 <= j < |s| && s[j] == "";
    assert j == 0 || LessEq(s[0], s[j]);
  }

  /** The first maximizer is the empty name exactly when the empty name is
      unassigned and aware of as many concepts as anyone. */
  lemma FirstMaxIsEmptyName(k: Cohort, unassigned: seq<string>)
    requires |unassigned| > 0 && StrictlySorted(unassigned)
    ensures var b := FirstMax(unassigned, SeedKeyOf(k));
            unassigned[b] == "" <==> "" in unassigned && forall x | x in unassigned :: SeedKey(k, x) <= SeedKey(k, "")
  {
    var b := FirstMax(unassigned, SeedKeyOf(k));
    if "" in unassigned && forall x | x in unassigned :: SeedKey(k, x) <= SeedKey(k, "") {
      EmptyNameFirst(unassigned);
      assert b == 0;
    }
  }

  /** The seed step: the first student aware of the most concepts, moved into
      an empty group unless its name is the empty string (`if best:`). */
  function Seed(k: Cohort, unassigned: seq<string>): (r: (seq<string>, seq<string>))
    requires |unassigned| > 0 && StrictlySorted(unassigned)
    ensures Pool(r.0, r.1) && StrictlySorted(r.1)
    ensures multiset(r.0) + multiset(r.1) == multiset(unassigned)
    ensures |r.0| <= 1 && |r.0| + |r.1| == |unassigned|
    ensures r.0 == [] <==> "" in unassigned && forall x | x in unassigned :: SeedKey(k, x) <= SeedKey(k, "")
    ensures r.0 != [] ==> forall x | x in unassigned :: SeedKey(k, x) <= SeedKey(k, r.0[0])
  {
    var b := FirstMax(unassigned, SeedKeyOf(k));
    SortedIsDistinct(unassigned);
    MoveKeepsPool([], unassigned, b);
    FirstMaxIsEmptyName(k, unassigned);
    RemoveAtSorted(unassigned, b);
    assert [] + [unassigned[b]] == [unassigned[b]];
    if unassigned[b] != "" then ([unassigned[b]], RemoveAt(unassigned, b)) else ([], unassigned)
  }

  /** A step keeps the unassigned students in ascending order. */
  lemma {:induction false} FillKeepsOrder(k: Cohort, target: nat, group: seq<string>, unassigned: seq<string>)
    requires Pool(group, unassigned) && StrictlySorted(unassigned)
    ensures StrictlySorted(Fill(k, target, group, unassigned).1)
    decreases |unassigned|
  {
    if |group| < target && |unassigned| > 0 {
      var i := FirstMax(unassigned, GainOf(k, group));
      RemoveAtSorted(unassigned, i);
      var s := Step(k, group, unassigned);
      FillKeepsOrder(k, target, s.0, s.1);
    }
  }

  /** What a round's seed and fill phases promise, put together: the group
      has `target_size` members or all that are left, and the students are
      split between the group and the rest. */
  lemma RoundSplit(target: nat, unassigned: seq<string>, seed: (seq<string>, seq<string>), r: (seq<string>, seq<string>))
    requires |unassigned| > 0
    requires target >= 1 || "" !in unassigned
    requires multiset(seed.0) + multiset(seed.1) == multiset(unassigned)
    requires |seed.0| <= 1 && |seed.0| + |seed.1| == |unassigned|
    requires seed.0 == [] ==> "" in unassigned
    requires Pool(r.0, r.1)
    requires |r.0| == if |seed.0| >= target then |seed.0| else Min(target, |seed.0| + |seed.1|)
    requires |r.0| + |r.1| == |seed.0| + |seed.1|
    requires multiset(r.0) + multiset(r.1) == multiset(seed.0) + multiset(seed.1)
    ensures |r.0| == Min(Capacity(target), |unassigned|) && |r.1| == |unassigned| - |r.0|
    ensures forall x :: x in r.0 || x in r.1 <==> x in unassigned
  {
    SplitMembers(r.0, r.1, unassigned);
  }

  /** One iteration of the outer loop: seed, coverage phase, fill phase.
      Returns the group in pick order and the students still unassigned, in
      their order. The group has `target_size` members, or every remaining
      student when fewer are left. */
  function Round(k: Cohort, target: nat, unassigned: seq<string>): (r: (seq<string>, seq<string>))
    requires |unassigned| > 0 && StrictlySorted(unassigned)
    requires target >= 1 || "" !in unassigned
    ensures Distinct(r.0) && StrictlySorted(r.1)
    ensures |r.0| == Min(Capacity(target), |unassigned|) && |r.1| == |unassigned| - |r.0|
    ensures forall x :: x in r.0 || x in r.1 <==> x in unassigned
    ensures forall x | x in r.0 :: x !in r.1
  {
    var seed := Seed(k, unassigned);
    var e := Extend(k, target, seed.0, seed.1);
    ExtendThenFill(k, target, seed.0, seed.1);
    FillKeepsOrder(k, target, seed.0, seed.1);
    var r := Fill(k, target, e.0, e.1);
    RoundSplit(target, unassigned, seed, r);
    r
  }

  /** When no student has the empty name, a round's first member is a
      student aware of the most concepts among all unassigned students. */
  lemma RoundSeedIsMaximal(k: Cohort, target: nat, unassigned: seq<string>)
    requires |unassigned| > 0 && StrictlySorted(unassigned)
    requires "" !in unassigned
    ensures var r := Round(k, target, unassigned);
            |r.0| > 0 && forall x | x in unassigned :: SeedKey(k, x) <= SeedKey(k, r.0[0])
  {
    var seed := Seed(k, unassigned);
    ExtendThenFill(k, target, seed.0, seed.1);
    var r := Fill(k, target, seed.0, seed.1);
    assert r.0[0] == r.0[..1][0] == seed.0[0];
  }

  /** Every member after the first was a largest-gain choice among the
      students unassigned at that moment; when the seed was skipped the first
      member was one too. */
  lemma RoundIsGreedy(k: Cohort, target: nat, unassigned: seq<string>)
    requires |unassigned| > 0 && StrictlySorted(unassigned)
    requires target >= 1 || "" !in unassigned
    ensures GreedyFrom(k, Members(unassigned), Round(k, target, unassigned).0, 1)
    ensures Seed(k, unassigned).0 == [] ==> GreedyFrom(k, Members(unassigned), Round(k, target, unassigned).0, 0)
  {
    var seed := Seed(k, unassigned);
    ExtendThenFill(k, target, seed.0, seed.1);
    FillIsGreedy(k, target, seed.0, seed.1);
    SplitMembers(seed.0, seed.1, unassigned);
  }

  /** `ceil(n / d)`, counted as the number of `d`-sized bites that consume `n`. */
  function CeilDiv(n: nat, d: nat): nat
    requires d > 0
    decreases n
  {
    if n == 0 then 0 else 1 + CeilDiv(n - Min(d, n), d)
  }

  /** `CeilDiv` is the ceiling of the quotient: the least count whose bites cover `n`. */
  lemma {:induction false} CeilDivBounds(n: nat, d: nat)
    requires d > 0
    ensures n <= CeilDiv(n, d) * d
    ensures n > 0 ==> (CeilDiv(n, d) - 1) * d < n
    decreases n
  {
    if n > d {
      CeilDivBounds(n - d, d);
      var q := CeilDiv(n - d, d);
      assert CeilDiv(n, d) * d == d + q * d;
      assert (CeilDiv(n, d) - 1) * d == q * d;
    }
  }

  /** The outer loop: the groups in the order they are emitted, each listed
      in ascending name order. All are full but possibly the last. */
  function Rounds(k: Cohort, target: nat, unassigned: seq<string>): (groups: seq<seq<string>>)
    requires StrictlySorted(unassigned)
    requires target >= 1 || "" !in unassigned
    ensures |groups| == CeilDiv(|unassigned|, Capacity(target))
    decreases |unassigned|
  {
    if |unassigned| == 0 then []
    else
      var r := Round(k, target, unassigned);
      [SortSet(Members(r.0))] + Rounds(k, target, r.1)
  }

  /** How the outer loop carves `pool` into groups: each group is the next
      `cap` students (or all that are left), listed in ascending order, and the
      rest are carved the same way. */
  predicate Chain(groups: seq<seq<string>>, pool: set<string>, cap: nat)
    decreases |groups|
  {
    if groups == [] then pool == {}
    else
      && pool != {}
      && StrictlySorted(groups[0])
      && |groups[0]| == Min(cap, |pool|)
      && Members(groups[0]) <= pool
      && Chain(groups[1..], pool - Members(groups[0]), cap)
  }

  lemma ChainCons(g: seq<string>, rest: seq<seq<string>>, pool: set<string>, cap: nat)
    requires pool != {} && StrictlySorted(g) && |g| == Min(cap, |pool|) && Members(g) <= pool
    requires Chain(rest, pool - Members(g), cap)
    ensures Chain([g] + rest, pool, cap)
  {
    assert ([g] + rest)[1..] == rest;
  }

  /** One turn of the outer loop, as an equation. */
  lemma RoundsUnfold(k: Cohort, target: nat, unassigned: seq<string>)
    requires StrictlySorted(unassigned) && |unassigned| > 0
    requires target >= 1 || "" !in unassigned
    ensures var r := Round(k, target, unassigned);
            Rounds(k, target, unassigned) == [SortSet(Members(r.0))] + Rounds(k, target, r.1)
  {
  }

  /** A group is emitted as its members in ascending order. */
  lemma SortedMembers(group: seq<string>)
    requires Distinct(group)
    ensures var g := SortSet(Members(group));
            StrictlySorted(g) && |g| == |group| && Members(g) == Members(group)
  {
    DistinctMembers(group);
  }

  /** A round takes its members out of the pool and leaves the rest. */
  lemma RoundMembers(k: Cohort, target: nat, unassigned: seq<string>)
    requires |unassigned| > 0 && StrictlySorted(unassigned)
    requires target >= 1 || "" !in unassigned
    ensures var r := Round(k, target, unassigned);
            Members(r.0) <= Members(unassigned) && Members(r.1) == Members(unassigned) - Members(r.0)
  {
  }

  /** The groups the outer loop emits carve the students as `Chain` says. */
  lemma {:induction false} RoundsChain(k: Cohort, target: nat, unassigned: seq<string>)
    requires StrictlySorted(unassigned)
    requires target >= 1 || "" !in unassigned
    ensures Chain(Rounds(k, target, unassigned), Members(unassigned), Capacity(target))
    decreases |unassigned|
  {
    SortedIsDistinct(unassigned);
    DistinctMembers(unassigned);
    if |unassigned| > 0 {
      var r := Round(k, target, unassigned);
      RoundsChain(k, target, r.1);
      RoundsUnfold(k, target, unassigned);
      SortedMembers(r.0);
      RoundMembers(k, target, unassigned);
      assert unassigned[0] in Members(unassigned);
      ChainCons(SortSet(Members(r.0)), Rounds(k, target, r.1), Members(unassigned), Capacity(target));
    }
  }

  /** Each group is sorted and holds between one and `cap` students; all but
      the last hold exactly `cap`; there are `ceil(|pool| / cap)` of them. */
  lemma {:induction false} ChainShape(groups: seq<seq<string>>, pool: set<string>, cap: nat)
    requires cap >= 1 && Chain(groups, pool, cap)
    ensures |groups| == CeilDiv(|pool|, cap)
    ensures forall i | 0 <= i < |groups| :: StrictlySorted(groups[i]) && 1 <= |groups[i]| <= cap
    ensures forall i | 0 <= i < |groups| - 1 :: |groups[i]| == cap
    decreases |groups|
  {
    if groups != [] {
      var g := groups[0];
      SortedIsDistinct(g);
      DistinctMembers(g);
      ChainShape(groups[1..], pool - Members(g), cap);
      assert |pool - Members(g)| == |pool| - |g|;
    }
  }

  /** The groups partition the pool: every member is in exactly one group. */
  lemma {:induction false} ChainPartition(groups: seq<seq<string>>, pool: set<string>, cap: nat)
    requires Chain(groups, pool, cap)
    ensures forall x :: x in pool <==> exists i | 0 <= i < |groups| :: x in groups[i]
    ensures forall i, j, x | 0 <= i < j < |groups| && x in groups[i] :: x !in groups[j]
    decreases |groups|
  {
    if groups != [] {
      var g := groups[0];
      var rest := groups[1..];
      ChainPartition(rest, pool - Members(g), cap);
      forall x | x in pool
        ensures exists i | 0 <= i < |groups| :: x in groups[i]
      {
        if x !in g {
          assert x in pool - Members(g);
          var i :| 0 <= i < |rest| && x in rest[i];
          assert x in groups[i + 1];
        }
      }
      forall x, i | 0 <= i < |groups| && x in groups[i]
        ensures x in pool
      {
        if i > 0 {
          assert x in rest[i - 1];
          assert x in pool - Members(g);
        }
      }
      forall i, j, x | 0 <= i < j < |groups| && x in groups[i]
        ensures x !in groups[j]
      {
        assert groups[j] == rest[j - 1];
        if i == 0 {
          assert x !in pool - Members(g);
        } else {
          assert x in rest[i - 1];
        }
      }
    }
  }

  /** `groups[gid] = ...; gid += 1` from `gid = first`: the groups keyed by
      consecutive ids. */
  function Numbered(gs: seq<seq<string>>, first: int): (m: map<int, seq<string>>)
    ensures forall i :: i in m <==> first <= i < first + |gs|
    ensures forall i | i in m :: m[i] == gs[i - first]
    decreases |gs|
  {
    if gs == [] then map[]
    else Numbered(gs[1..], first + 1)[first := gs[0]]
  }

  /** The outer loop over a pool of students, taken in ascending order. */
  function PoolGroups(k: Cohort, target: nat, pool: set<string>): (gs: seq<seq<string>>)
    requires target >= 1 || "" !in pool
    ensures Chain(gs, pool, Capacity(target))
  {
    var students := SortSet(pool);
    SortedPoolChain(k, target, students, pool);
    Rounds(k, target, students)
  }

  lemma SortedPoolChain(k: Cohort, target: nat, students: seq<string>, pool: set<string>)
    requires StrictlySorted(students) && forall x :: x in students <==> x in pool
    requires target >= 1 || "" !in pool
    ensures Chain(Rounds(k, target, students), pool, Capacity(target))
  {
    RoundsChain(k, target, students);
    assert Members(students) == pool;
  }

  /** The groups of `build_study_groups` in the order they are formed. */
  function GroupList(scores: Scores, concepts: seq<string>, target: nat): (gs: seq<seq<string>>)
    requires target >= 1 || "" !in scores
    ensures Chain(gs, scores.Keys, Capacity(target))
  {
    PoolGroups(Cohort(concepts, AwareMap(scores, concepts)), target, scores.Keys)
  }

  /** build_study_groups: the groups keyed 1, 2, ... in the order they are
      formed; there are `ceil(|scores| / target_size)` of them. */
  function BuildStudyGroups(scores: Scores, concepts: seq<string>, target: nat): (groups: map<int, seq<string>>)
    requires target >= 1 || "" !in scores
    ensures forall i :: i in groups <==> 1 <= i <= CeilDiv(|scores.Keys|, Capacity(target))
  {
    var gs := GroupList(scores, concepts, target);
    ChainShape(gs, scores.Keys, Capacity(target));
    Numbered(gs, 1)
  }

  /** Each group lists its members in ascending order and holds between one
      and `target_size` students; every group but the last is full. */
  lemma BuildStudyGroupsShape(scores: Scores, concepts: seq<string>, target: nat)
    requires target >= 1 || "" !in scores
    ensures var groups := BuildStudyGroups(scores, concepts, target);
            && (forall i | i in groups :: StrictlySorted(groups[i]) && 1 <= |groups[i]| <= Capacity(target))
            && (forall i | i in groups && i + 1 in groups :: |groups[i]| == Capacity(target))
  {
    var gs := GroupList(scores, concepts, target);
    ChainShape(gs, scores.Keys, Capacity(target));
  }

  /** Numbering a chain of groups keeps it a partition of the pool. */
  lemma NumberedPartition(gs: seq<seq<string>>, pool: set<string>, cap: nat, groups: map<int, seq<string>>)
    requires Chain(gs, pool, cap) && groups == Numbered(gs, 1)
    ensures forall s :: s in pool <==> exists i | i in groups :: s in groups[i]
    ensures forall i, j, s | i in groups && j in groups && i != j && s in groups[i] :: s !in groups[j]
  {
    ChainPartition(gs, pool, cap);
    forall s | s in pool
      ensures exists i | i in groups :: s in groups[i]
    {
      var j :| 0 <= j < |gs| && s in gs[j];
      assert s in groups[j + 1];
    }
    forall s, i | i in groups && s in groups[i]
      ensures s in pool
    {
      assert s in gs[i - 1];
    }
    forall i, j, s | i in groups && j in groups && i != j && s in groups[i]
      ensures s !in groups[j]
    {
      if i < j {
        assert s !in gs[j - 1];
      } else {
        assert s in gs[i - 1];
      }
    }
  }

  /** Every student with a score record lands in exactly one group, and no
      one else is grouped. */
  lemma BuildStudyGroupsPartition(scores: Scores, concepts: seq<string>, target: nat)
    requires target >= 1 || "" !in scores
    ensures var groups := BuildStudyGroups(scores, concepts, target);
            && (forall s :: s in scores <==> exists i | i in groups :: s in groups[i])
            && (forall i, j, s | i in groups && j in groups && i != j && s in groups[i] :: s !in groups[j])
  {
    var gs := GroupList(scores, concepts, target);
    BuildStudyGroupsNumbered(scores, concepts, target);
    NumberedPartition(gs, scores.Keys, Capacity(target), BuildStudyGroups(scores, concepts, target));
  }

  /** The map `build_study_groups` returns is the numbered group list. */
  lemma BuildStudyGroupsNumbered(scores: Scores, concepts: seq<string>, target: nat)
    requires target >= 1 || "" !in scores
    ensures BuildStudyGroups(scores, concepts, target) == Numbered(GroupList(scores, concepts, target), 1)
  {
  }
}

=== FILE: weakconcepts.dfy ===
/** The cohort's weak concepts (the selection at the top of
    `node_lesson_plans`): a concept is weak when the upper median of the
    cohort's scores on it is below 70. */
module WeakConcepts {
  import opened Basics
  import opened Awareness

  predicate Sorted(s: seq<real>) {
    forall i, j | 0 <= i < j < |s| :: s[i] <= s[j]
  }

  lemma SortedCons(a: real, s: seq<real>)
    requires Sorted(s) && forall y | y in s :: a <= y
    ensures Sorted([a] + s)
  {
    forall i, j | 0 <= i < j < |s| + 1
      ensures ([a] + s)[i] <= ([a] + s)[j]
    {
      assert ([a] + s)[j] == s[j - 1] && s[j - 1] in s;
      if i > 0 {
        assert ([a] + s)[i] == s[i - 1];
      }
    }
  }

  /** `x` placed into the ascending list `s` before the first larger element. */
  function Insert(x: real, s: seq<real>): (r: seq<real>)
    requires Sorted(s)
    ensures Sorted(r)
    ensures multiset(r) == multiset(s) + multiset{x}
    decreases |s|, 1
  {
    if s == [] || x <= s[0] then
      assert forall y | y in s :: x <= y by {
        assert forall i | 0 <= i < |s| :: s[0] <= s[i];
      }
      SortedCons(x, s);
      [x] + s
    else
      var rest := Insert(x, s[1..]);
      assert s == [s[0]] + s[1..];
      assert forall i | 0 <= i < |s[1..]| :: s[0] <= s[1..][i];
      InsertLowerBound(x, s[1..], s[0]);
      SortedCons(s[0], rest);
      [s[0]] + rest
  }

  lemma InsertLowerBound(x: real, s: seq<real>, b: real)
    requires Sorted(s) && b <= x && forall y | y in s :: b <= y
    ensures forall y | y in Insert(x, s) :: b <= y
    decreases |s|, 2
  {
    forall y | y in Insert(x, s)
      ensures b <= y
    {
      assert y in multiset(Insert(x, s));
      if y != x {
        assert y in multiset(s);
        assert y in s;
      }
    }
  }

  /** `vals.sort()`: the same values in ascending order. */
  function Sort(vals: seq<real>): (r: seq<real>)
    ensures Sorted(r)
    ensures multiset(r) == multiset(vals)
    ensures |r| == |vals|
  {
    if vals == [] then []
    else
      var rest := Sort(vals[1..]);
      var r := Insert(vals[0], rest);
      SortCount(vals, rest, r);
      r
  }

  /** Inserting the head into the sorted tail keeps every value and adds none. */
  lemma SortCount(vals: seq<real>, rest: seq<real>, r: seq<real>)
    requires |vals| > 0
    requires multiset(rest) == multiset(vals[1..])
    requires multiset(r) == multiset(rest) + multiset{vals[0]}
    ensures multiset(r) == multiset(vals) && |r| == |vals|
  {
    assert vals == [vals[0]] + vals[1..];
    assert |r| == |multiset(r)|;
  }

  /** `sorted(vals)[len(vals) // 2]`: the middle value, or the upper of the two
      middle values when the count is even. It is one of the values, at most
      `len // 2` values lie below it, and more than `len // 2` lie below any
      larger number. */
  function UpperMedian(vals: seq<real>): (m: real)
    requires |vals| > 0
    ensures m in vals
    ensures CountBelow(vals, m) <= |vals| / 2
    ensures forall t | m < t :: CountBelow(vals, t) > |vals| / 2
  {
    MiddleOfSorted(vals);
    Sort(vals)[|vals| / 2]
  }

  /** Where the middle of the sorted list stands among the values. */
  lemma MiddleOfSorted(vals: seq<real>)
    requires |vals| > 0
    ensures var m := Sort(vals)[|vals| / 2];
            && m in vals
            && CountBelow(vals, m) <= |vals| / 2
            && forall t | m < t :: CountBelow(vals, t) > |vals| / 2
  {
    var s := Sort(vals);
    var m := s[|vals| / 2];
    assert m in multiset(s);
    CountBelowSort(vals, m);
    SortedPrefixBelow(s, m, |vals| / 2);
    forall t | m < t
      ensures CountBelow(vals, t) > |vals| / 2
    {
      CountBelowSort(vals, t);
      SortedPrefixBelow(s, t, |vals| / 2);
    }
  }

  /** The number of values below `t`. */
  function CountBelow(vals: seq<real>, t: real): nat {
    CountIf(vals, v => v < t)
  }

  lemma {:induction false} CountBelowInsert(x: real, s: seq<real>, t: real)
    requires Sorted(s)
    ensures CountBelow(Insert(x, s), t) == CountBelow(s, t) + (if x < t then 1 else 0)
    decreases |s|
  {
    if s == [] || x <= s[0] {
      assert ([x] + s)[1..] == s;
    } else {
      CountBelowInsert(x, s[1..], t);
      assert ([s[0]] + Insert(x, s[1..]))[1..] == Insert(x, s[1..]);
    }
  }

  /** Sorting does not change how many values fall below a bound. */
  lemma {:induction false} CountBelowSort(vals: seq<real>, t: real)
    ensures CountBelow(Sort(vals), t) == CountBelow(vals, t)
    decreases |vals|
  {
    if vals != [] {
      CountBelowSort(vals[1..], t);
      CountBelowInsert(vals[0], Sort(vals[1..]), t);
    }
  }

  /** In an ascending list the values below `t` form a prefix, so position
      `m` is below `t` exactly when more than `m` values are. */
  lemma {:induction false} SortedPrefixBelow(s: seq<real>, t: real, m: nat)
    requires Sorted(s) && m < |s|
    ensures s[m] < t <==> CountBelow(s, t) > m
    decreases |s|
  {
    if s[0] < t {
      if m > 0 {
        SortedPrefixBelow(s[1..], t, m - 1);
      }
    } else {
      NoneBelow(s, t);
    }
  }

  lemma {:induction false} NoneBelow(s: seq<real>, t: real)
    requires Sorted(s) && |s| > 0 && t <= s[0]
    ensures CountBelow(s, t) == 0
    decreases |s|
  {
    if |s| > 1 {
      NoneBelow(s[1..], t);
    }
  }

  /** The upper median is below `t` exactly when more than half of the values
      (rounded down) are below `t`. */
  lemma UpperMedianBelow(vals: seq<real>, t: real)
    requires |vals| > 0
    ensures UpperMedian(vals) < t <==> CountBelow(vals, t) > |vals| / 2
  {
    CountBelowSort(vals, t);
    SortedPrefixBelow(Sort(vals), t, |vals| / 2);
  }

  /** An ascending list stays ascending when its elements are re-inserted
      in order, so sorting it changes nothing. */
  lemma {:induction false} SortSorted(s: seq<real>)
    requires Sorted(s)
    ensures Sort(s) == s
    decreases |s|
  {
    if s != [] {
      SortSorted(s[1..]);
      assert s == [s[0]] + s[1..];
    }
  }

  /** Of values already in ascending order, the upper median is the one at
      position `len // 2`. */
  lemma UpperMedianOfSorted(s: seq<real>)
    requires Sorted(s) && |s| > 0
    ensures UpperMedian(s) == s[|s| / 2]
  {
    SortSorted(s);
  }

  /** Odd count: the middle value, 60 of 40, 60, 80. */
  lemma UpperMedianOdd()
    ensures UpperMedian([40.0, 60.0, 80.0]) == 60.0
  {
    var s := [40.0, 60.0, 80.0];
    assert Sorted(s) by {
      forall i, j | 0 <= i < j < 3
        ensures s[i] <= s[j]
      {
      }
    }
    UpperMedianOfSorted(s);
  }

  /** Even count: the upper of the two middle values, not their mean: 80 of
      40, 60, 80, 100. */
  lemma UpperMedianEven()
    ensures UpperMedian([40.0, 60.0, 80.0, 100.0]) == 80.0
  {
    var s := [40.0, 60.0, 80.0, 100.0];
    assert Sorted(s) by {
      forall i, j | 0 <= i < j < 4
        ensures s[i] <= s[j]
      {
      }
    }
    UpperMedianOfSorted(s);
  }

  /** Every student has a score record. */
  predicate AllScored(scores: Scores, students: seq<string>) {
    forall s | s in students :: s in scores
  }

  /** The cohort's scores on `c`, one per listed student, 0 when missing. */
  function ColumnOf(scores: Scores, students: seq<string>, c: string): (vals: seq<real>)
    requires AllScored(scores, students)
    ensures |vals| == |students|
    ensures forall i | 0 <= i < |students| :: vals[i] == Get(scores[students[i]], c)
  {
    seq(|students|, i requires 0 <= i < |students| => Get(scores[students[i]], c))
  }

  /** The position of the first student without a score record. */
  function FirstMissing(scores: Scores, students: seq<string>): (i: nat)
    requires !AllScored(scores, students)
    ensures i < |students| && students[i] !in scores
    ensures forall j | 0 <= j < i :: students[j] in scores
  {
    if students[0] !in scores then 0
    else
      assert forall s | s in students[1..] :: s in students;
      1 + FirstMissing(scores, students[1..])
  }

  /** `[scores[s].get(c, 0) for s in students]`: raises `KeyError` at the
      first student without a score record. */
  function Column(scores: Scores, students: seq<string>, c: string): (r: Result<seq<real>>)
    ensures r.Success? <==> AllScored(scores, students)
    ensures r.Success? ==> r.value == ColumnOf(scores, students, c)
    ensures r.Failure? ==> r.error == KeyError(students[FirstMissing(scores, students)])
  {
    if students == [] then Success([])
    else if students[0] !in scores then Failure(KeyError(students[0]))
    else
      ColumnCons(scores, students, c);
      match Column(scores, students[1..], c)
      case Failure(e) => Failure(e)
      case Success(vals) => Success([Get(scores[students[0]], c)] + vals)
  }

  /** How the column and the first missing student follow from the rest of
      the cohort once the first student is scored. */
  lemma ColumnCons(scores: Scores, students: seq<string>, c: string)
    requires |students| > 0 && students[0] in scores
    ensures AllScored(scores, students) <==> AllScored(scores, students[1..])
    ensures AllScored(scores, students) ==>
              ColumnOf(scores, students, c) == [Get(scores[students[0]], c)] + ColumnOf(scores, students[1..], c)
    ensures !AllScored(scores, students) ==>
              students[FirstMissing(scores, students)] == students[1..][FirstMissing(scores, students[1..])]
  {
    assert students == [students[0]] + students[1..];
  }

  /** The reference rule: `c` is weak when more than half of the cohort
      (rounded down) scores below 70 on it. */
  predicate CohortWeak(scores: Scores, students: seq<string>, c: string)
    requires AllScored(scores, students)
  {
    CountBelow(ColumnOf(scores, students, c), Threshold) > |students| / 2
  }

  /** The weak-concept loop of `node_lesson_plans`. With no students the
      median lookup raises `IndexError`, unless there are no concepts either;
      a student without a score record raises `KeyError`. */
  function Weak(scores: Scores, students: seq<string>, concepts: seq<string>): (r: Result<seq<string>>)
    ensures r == Failure(IndexError) <==> concepts != [] && AllScored(scores, students) && students == []
    ensures r.Failure? <==> concepts != [] && (students == [] || !AllScored(scores, students))
    ensures concepts != [] && !AllScored(scores, students) ==>
              r == Failure(KeyError(students[FirstMissing(scores, students)]))
    ensures r.Success? ==> Subsequence(r.value, concepts)
    ensures r.Success? ==> forall c :: c in r.value <==> c in concepts && CohortWeak(scores, students, c)
    decreases |concepts|
  {
    if concepts == [] then Success([])
    else
      match Column(scores, students, concepts[0])
      case Failure(e) => Failure(e)
      case Success(vals) =>
        if |vals| == 0 then Failure(IndexError)
        else
          match Weak(scores, students, concepts[1..])
          case Failure(e) => Failure(e)
          case Success(rest) =>
            UpperMedianBelow(vals, Threshold);
            if UpperMedian(vals) < Threshold then
              assert ([concepts[0]] + rest)[1..] == rest;
              Success([concepts[0]] + rest)
            else
              assert concepts == [concepts[0]] + concepts[1..];
              Success(rest)
  }

  /** One step of `Weak`: the head concept is kept in front of the tail's
      answer exactly when the cohort is weak on it. */
  lemma WeakCons(scores: Scores, students: seq<string>, concepts: seq<string>)
    requires concepts != [] && Weak(scores, students, concepts).Success?
    ensures Weak(scores, students, concepts[1..]).Success?
    ensures Weak(scores, students, concepts).value ==
              if CohortWeak(scores, students, concepts[0])
              then [concepts[0]] + Weak(scores, students, concepts[1..]).value
              else Weak(scores, students, concepts[1..]).value
  {
    UpperMedianBelow(ColumnOf(scores, students, concepts[0]), Threshold);
  }

  /** Counting one name through a filter step: `w` is `rest`, with `x` in front
      when `x` is kept. */
  lemma CountStep(x: string, tail: seq<string>, rest: seq<string>, w: seq<string>,
                  keepX: bool, c: string, keepC: bool)
    requires w == if keepX then [x] + rest else rest
    requires c == x ==> keepC == keepX
    requires c in tail ==> multiset(rest)[c] == if keepC then multiset(tail)[c] else 0
    requires c !in tail ==> c !in rest
    requires c in [x] + tail
    ensures multiset(w)[c] == if keepC then multiset([x] + tail)[c] else 0
  {
    assert multiset([x] + tail) == multiset([x]) + multiset(tail);
    if keepX {
      assert multiset(w) == multiset([x]) + multiset(rest);
    }
    if c !in tail {
      assert multiset(rest)[c] == 0;
      assert multiset(tail)[c] == 0;
    }
  }

  /** The names of `xs` that belong to `kept`, in order and with repeats. */
  function Keep(xs: seq<string>, kept: set<string>): (r: seq<string>)
    ensures forall c | c in r :: c in xs
  {
    if xs == [] then [] else (if xs[0] in kept then [xs[0]] else []) + Keep(xs[1..], kept)
  }

  /** Filtering by membership keeps every copy of a kept name and none of
      the others. */
  lemma {:induction false} KeepCount(xs: seq<string>, kept: set<string>)
    ensures forall c | c in xs :: multiset(Keep(xs, kept))[c] == if c in kept then multiset(xs)[c] else 0
  {
    if xs != [] {
      var tail := xs[1..];
      assert xs == [xs[0]] + tail;
      KeepCount(tail, kept);
      forall c | c in xs
        ensures multiset(Keep(xs, kept))[c] == if c in kept then multiset(xs)[c] else 0
      {
        CountStep(xs[0], tail, Keep(tail, kept), Keep(xs, kept), xs[0] in kept, c, c in kept);
      }
    }
  }

  /** `Weak` is the membership filter by the set of concepts the cohort is
      weak on. */
  lemma {:induction false} WeakIsKeep(scores: Scores, students: seq<string>, concepts: seq<string>,
                                      kept: set<string>)
    requires AllScored(scores, students)
    requires Weak(scores, students, concepts).Success?
    requires forall c | c in concepts :: c in kept <==> CohortWeak(scores, students, c)
    ensures Weak(scores, students, concepts).value == Keep(concepts, kept)
    decreases |concepts|
  {
    if concepts != [] {
      WeakCons(scores, students, concepts);
      WeakIsKeep(scores, students, concepts[1..], kept);
    }
  }

  /** A concept listed several times is weak as many times as it is listed,
      or not at all. */
  lemma WeakCounts(scores: Scores, students: seq<string>, concepts: seq<string>)
    requires Weak(scores, students, concepts).Success?
    ensures concepts != [] ==> AllScored(scores, students)
    ensures forall c | c in concepts :: multiset(Weak(scores, students, concepts).value)[c] ==
              if CohortWeak(scores, students, c) then multiset(concepts)[c] else 0
  {
    if concepts != [] {
      var kept := set c | c in concepts && CohortWeak(scores, students, c);
      WeakIsKeep(scores, students, concepts, kept);
      KeepCount(concepts, kept);
    }
  }
}
